=== FILE: README.md ===
# Virus Spread Challenge — a Dafny model of the board engine and save codecs

Virus Spread Challenge is played on an N×N board. Each cell is free (0), virus (1) or barrier (2). The player places barriers. The virus spreads from its cells into free neighbours. A barrier is refused when it would cut a free region off from every virus cell (the "island" rule). The player wins once the virus cannot spread any further.

This project models four pieces of the Python program as pure Dafny functions over immutable values and proves properties about them:

| module | file | models |
|---|---|---|
| `Board` | board.dfy | grid vocabulary: cells, neighbours, the board/virus-list mirror |
| `Validation` | validation.dfy | `Validation.validate_no_islands`: the multi-source BFS |
| `GameLogic` | game_logic.dfy | `GameLogic`: seeding, `place_barrier`, `spread_virus`, `check_game_status`, `next_level`, `reset_board` |
| `Radix` | radix.dfy | number formats: base-3 rows, `bit_length`, hex lengths, big-endian bytes, `_base3` |
| `SaveCodec` | file_manager.dfy | `FileManager.save_game` / `load_game`: the fixed-width format |
| `HandlerCodec` | file_handler.dfy | `FileHandler.save_game` / `load_game`: the variable-width format, the one gui.py saves and loads through |

`Wrappers` (wrappers.dfy) holds the `Option` type used for every error path.

Modelling choices:
- **Randomness** becomes input.
  - Seeding takes a stream of drawn cells. It uses rejection sampling as the source does: a draw that lands on a non-free cell is discarded.
  - A spread tick takes one shuffled direction order per virus cell. Every spread property is proved for all orders.
- **Exceptions** become `None`. This covers `struct.pack` overflow, a short header, an empty row read, and the constructor's `randint(0, -1)` at size 0.
- **Files** become byte sequences (`seq<byte>`). The model does no file I/O.
- **The spread tick** is simultaneous, as game_logic.py:87-100 writes it. Each listed virus cell, in list order, infects at most one free neighbour. Cells infected during the tick are appended only after the loop, so they do not spread in the same tick.
- **`FileManager.load_game`** constructs `GameLogic(size)`, which seeds one random cell. The model takes that draw as a parameter.

The model follows the code, whose behaviour is:
- The code has no barrier budget, no level cap and no budget-based loss.
- Virus cells take their turns in list order, not in a shuffled order.
- `FileManager.load_game` does not rebuild the virus list (see Findings).
- A short final row read is decoded as it is, not rejected.
- `check_game_status` never declares the virus the winner. That branch is reached only when some listed cell can spread, and a cell that can spread has a free neighbour (`GameLogic.SpreadImpliesFree`), so `free_cells == 0` never holds there.

## Model

| member | source | states |
|---|---|---|
| Validation.Admit | validation.py:51-56 | The cells admitted when a cell is popped are distinct, free, previously unvisited and adjacent to it. Every free neighbour ends up visited or admitted. |
| Validation.Bfs | validation.py:48-56 | The `while queue` loop only adds cells to the visited set and stays on the board. The number of pops equals the initial queue length plus the number of newly visited cells. |
| Validation.BfsStart | validation.py:43-45 | Queueing and marking every source establishes the loop invariant: visited cells are reachable, and a visited cell that has left the queue has all its free neighbours visited. |
| Validation.BfsStep | validation.py:48-56 | One pop keeps that invariant. |
| Validation.BfsCorrect | validation.py:43-56 | From any state satisfying the invariant, the loop ends with the visited set equal to the set of cells reachable from the sources through free cells. |
| Validation.Explore | validation.py:39-56 | The search from the listed sources visits exactly the reachable cells. Each visited cell is a source or a free cell. The loop pops at most `|sources| + size²` times. |
| Validation.Verdict | validation.py:58-63 | Once the visited set equals the reachable set, the final double loop answers exactly whether every free cell is reachable. |
| Validation.ValidateNoIslands | validation.py:27-63 | True iff every free cell is reachable from the virus list (the island rule). True on a board with no free cell. False with an empty list and some free cell. |
| GameLogic.Seed | game_logic.py:51-58 | When it finishes, the seeding loop has picked `level` distinct cells that were free, turned exactly them to 1 and listed them in draw order: every pick is a draw, and the picks form a subsequence of the draws (`InOrder`). |
| GameLogic.SeedStalls | game_logic.py:52-58 | Asking for more than size² cells never finishes, whatever the draws. |
| GameLogic.SeedCompletes | game_logic.py:53-58 | Draws that hit at least `level` distinct free cells finish the seeding. |
| GameLogic.SeedPossible | game_logic.py:52-58 | On a fresh board, seeding `k ≤ size²` cells can finish: the row-major list of all cells is such a draw stream. |
| GameLogic.FreshBoardPlayable | game_logic.py:143-148 | A freshly seeded board is ternary, its virus list is exactly its 1-cells, and every free cell is reachable. |
| GameLogic.NewGame | game_logic.py:32-47 | The constructor fails for size below 1 and finishes for any non-empty draw stream otherwise. The result is level 1, turn 0, not over, no winner, one virus cell, and satisfies the island rule. |
| GameLogic.ResetBoard | game_logic.py:141-148 | Reset keeps the size and level, sets turn 0, not over and no winner, lists `level` virus cells, leaves every other cell free, and is playable. It cannot finish when `level > size²`. |
| GameLogic.PlaceBarrier | game_logic.py:71-80 | Placement succeeds iff the game is not over, the cell is free and the board with the barrier satisfies the island rule. On success only that cell changes, to 2. On refusal nothing changes. Placement keeps both the data invariant and the island rule. |
| GameLogic.TryInfect | game_logic.py:93-98 | One virus cell's turn finds a free neighbour if it finds anything. It finds nothing only when no direction in its order leads to a free in-bounds cell. |
| GameLogic.SpreadPass | game_logic.py:90-98 | After the loop, the cells that hold 1 but did not before are exactly the cells the virus cells infected. Every other cell is unchanged. |
| GameLogic.SpreadAdjacent | game_logic.py:90-98 | Each virus cell infects at most one cell, and that cell is its neighbour and was free when the tick began. |
| GameLogic.SpreadFresh | game_logic.py:93-97 | No cell is infected twice in one tick, and every infected cell was free when the tick began. |
| GameLogic.SpreadOutcomes | game_logic.py:90-98 | Both facts together: outcomes are adjacent to their sources, were free at the start of the tick, and are distinct. |
| GameLogic.SpreadProgress | game_logic.py:90-98 | The tick infects nothing iff no listed virus cell had a free neighbour at its start. |
| GameLogic.Tick | game_logic.py:87-101 | The tick raises the turn by exactly one. It keeps the old list as a prefix and appends at most one cell per old virus cell. |
| GameLogic.TickGrowth | game_logic.py:90-100 | The virus list grows in a tick iff some listed cell could spread. |
| GameLogic.TickCells | game_logic.py:93-100 | A tick changes only free cells, and only to 1, and every changed cell is listed afterwards. |
| GameLogic.SpreadKeepsMirror | game_logic.py:95-100 | Turning distinct free cells to 1 and appending them keeps the list duplicate-free and equal to the board's 1-cells. |
| GameLogic.TickKeepsValid | game_logic.py:87-101 | A tick keeps the data invariant: the board is ternary and the list mirrors its 1-cells. |
| GameLogic.CanSpreadLoop | game_logic.py:106-116 | The nested search over listed cells and directions, stopping at the first in-bounds free neighbour, finds one iff some listed cell has a free neighbour. |
| Board.FreeCountZero | game_logic.py:123 | `sum(row.count(0) for row in board)` is 0 iff no cell of the board is free. |
| GameLogic.CheckGameStatus | game_logic.py:104-126 | The player is declared winner exactly when no listed virus cell has a free neighbour. Otherwise the game is left unchanged, because a possible spread implies a free cell, so the "virus" branch is dead. |
| GameLogic.SpreadImpliesFree | game_logic.py:118-126 | A virus cell with a free neighbour means the board has a free cell. |
| GameLogic.SpreadVirus | game_logic.py:82-102 | No-op once the game is over. Otherwise: turn + 1, level kept, old list kept as prefix, at most double the length, growth iff a spread was possible, only free cells become 1, and the data invariant is kept. The closing status check ends the game iff no listed cell can spread on the new board, and then declares the player the winner; otherwise the winner is unchanged. |
| GameLogic.SpreadKeepsIslandRule | game_logic.py:82-102 | A spread tick keeps a playable game playable: every free cell is still reachable from the grown virus list. |
| GameLogic.GrowthKeepsIslandRule | game_logic.py:93-100 | Turning free cells into listed virus cells never cuts a free cell off. |
| GameLogic.SpreadIffFree | game_logic.py:104-126 | Under the island rule, some virus cell can spread iff the board has a free cell. So the player wins only on a full board, and a virus win never occurs. |
| GameLogic.FreeCellSpreads | game_logic.py:106-116 | Under the island rule, a free cell implies some listed virus cell has a free neighbour. |
| GameLogic.NextLevel | game_logic.py:128-139 | Advancing is refused iff the game is not a player win. After an advance, level + 1, turn 0, not over, no winner, `level` listed virus cells, all else free, and playable. It cannot advance past size² cells. |
| GameLogic.StepStaysPlayable | game_logic.py:60-148 | One placement, tick or level advance keeps the game playable, at level ≥ 1, never a virus win, and with a full board once over. |
| GameLogic.PlayStaysPlayable | game_logic.py:60-148 | The same for every sequence of actions. |
| Radix.BitLengthBound | file_manager.py:37 | `bit_length(n)` is the least k with n < 2^k. |
| Radix.HexLenBound | file_handler.py:90 | `len(format(n, 'x'))` is the least k ≥ 1 with n < 16^k. |
| Radix.HexBytesAgree | file_handler.py:89-91 | The `FileHandler` read width `(hexlen + 1) // 2` equals the fixed-width `(bit_length + 7) // 8` for every positive value. |
| Radix.ToBytes | file_manager.py:32-34 | `struct.pack` and `int.to_bytes` with width w give exactly w bytes. |
| Radix.FromBytes | file_handler.py:79 | `int.from_bytes` of s is below 256^|s|, so a 2-byte size is below 65536 and a 1-byte level below 256. |
| Radix.HexField | file_manager.py:43-50 | The zfill to `minDigits` hex digits, with an odd length evened by one '0', gives `(max(hexlen, minDigits) + 1) // 2` bytes. |
| Radix.BytesRoundTrip | file_manager.py:32 | Writing w big-endian bytes and reading them back gives the value modulo 256^w. |
| Radix.HexFieldFixed | file_manager.py:44-50 | A value of at most 8w bits zero-filled to 2w hex digits is exactly its w-byte big-endian form and reads back unchanged. The odd-length branch is dead. |
| Radix.HexFieldValue | file_handler.py:56-59 | A row's minimal even-length hex bytes are at least one byte and read back as the value. |
| Radix.ReadChunks | file_manager.py:71-74 | `count` successive reads of up to w bytes fail iff some read is empty. Every piece holds 1 to w bytes, and together the pieces are a prefix of the data. |
| Radix.ReadChunksPieces | file_manager.py:71-74 | Each read takes min(w, remaining) bytes, as `f.read(w)` does: every piece but the last holds exactly w bytes, and the last holds w or whatever remains. |
| Radix.ReadConcat | file_manager.py:71-74 | Pieces of exactly w bytes are read back as written, whatever follows. |
| Radix.ReadConcatLast | file_handler.py:88-94 | Pieces of w bytes followed by a final piece of 1 to w bytes at the end of the data are read back as written. |
| Radix.PositionalIsRowValue | file_manager.py:40-42 | The positional sum of file_manager.py equals the base-3 parse `int(digits, 3)` of file_handler.py. |
| Radix.DigitsValue | file_manager.py:76-78 | The `% 3`, `// 3` loop keeps exactly the value modulo 3^size. |
| Radix.DigitsOfRow | file_manager.py:76-78 | The digit loop applied to a ternary row's value gives the row back, leading zeros included. |
| Radix.MinDigitsLen | file_handler.py:122-124 | A number below 3^L has at most L base-3 digits. |
| Radix.Base3IsDigits | file_handler.py:119-126 | For n < 3^L, `_base3(n, L)` is exactly the L-digit zero-padded base-3 form of n (all zeros for 0). |
| SaveCodec.Header | file_manager.py:32-34 | The header is 4 bytes: size big-endian in two bytes, then level, then barriers, each read back in that order. |
| SaveCodec.EncodeRow | file_manager.py:39-50 | A written row is at least one byte and at least the row width `W` long, and its bytes read back as the row's base-3 value. |
| SaveCodec.RowWidthLeast | file_manager.py:36-37 | `bytes_per_row` is the least number of bytes that holds the largest row value 3^size - 1. |
| Radix.Digits | file_manager.py:76-78 | The `num % 3`, `num // 3` loop over j from size-1 down to 0 gives exactly `size` cells, each in {0, 1, 2}. `Radix.DigitsValue` states their value. |
| SaveCodec.RowFits | file_manager.py:36-50 | Each ternary row of a non-empty board takes exactly `(bit_length(3^size - 1) + 7) // 8` bytes and reads back as its base-3 value. |
| SaveCodec.Save | file_manager.py:29-54 | Saving succeeds iff size fits two bytes and level and barriers fit one byte each. The header holds those three fields. |
| SaveCodec.SaveLength | file_manager.py:36-50 | A saved file is `4 + size · W` bytes long, with W computed once from the size. |
| SaveCodec.DecodeRows | file_manager.py:71-78 | Decoding fails iff a row read is empty. Otherwise the rows are square and ternary, and each row's value is its bytes' value modulo 3^size. |
| SaveCodec.Load | file_manager.py:56-83 | Loading fails on fewer than 4 bytes, on size 0, and iff a row read comes back empty. Otherwise the game has the stored size, level and barriers, turn 0, and exactly one listed virus cell. Its board is exactly the decoded rows `DecodeRows(data[4..], size, W)`: row i's base-3 value is the value of the i-th read mod 3^size, even when a read comes back short. |
| SaveCodec.DecodeEncode | file_manager.py:71-78 | Decoding the encoded rows gives the rows back; bytes after the last row are ignored. |
| SaveCodec.LoadSave | file_manager.py:29-80 | Round trip: loading a save of any encodable non-empty board gives back its size, level, barrier count and identical board. |
| SaveCodec.LoadLosesVirus | file_manager.py:66-69 | A saved board with two virus cells reloads with a one-entry virus list, which breaks the board/list mirror. |
| SaveCodec.LoadRebuilt | file_manager.py:56-80 | The loader with the virus list rebuilt from the board fails exactly when the loader fails. It keeps the size, level, board and barrier count, and its result satisfies the data invariant. |
| SaveCodec.SameSources | validation.py:43-45 | The island rule depends only on the set of virus cells, not on their order or repetition. |
| SaveCodec.RebuiltKeepsPlay | file_manager.py:66-80 | Saving a playable game and loading it with the rebuilt list gives a playable game with the same board, level and virus cells. |
| HandlerCodec.Header | file_handler.py:44-49 | The header is 3 bytes: size big-endian in two bytes, then level. There is no barrier count. |
| HandlerCodec.Save | file_handler.py:41-64 | Saving succeeds iff size fits two bytes and level one byte. The file holds the header and at least one byte per row. |
| HandlerCodec.WidthLeast | file_handler.py:89-91 | `bytes_to_read` is the least number of bytes, and at least one, that holds 3^size - 1. |
| Radix.Base3 | file_handler.py:108-126 | `_base3(n, length)` is never shorter than `length` and has digits in {0, 1, 2}, for zero and non-zero `n` alike. `Radix.Base3IsDigits` states its value. |
| Board.OnesFrom | file_handler.py:97-101 | The scan lists exactly the board's 1-cells, each in bounds, in row-major order, so with no duplicates. |
| Board.RowOnes | file_handler.py:97-101 | Within one row, the scan lists exactly the columns holding 1, in increasing order. |
| HandlerCodec.WidthAgrees | file_handler.py:89-91 | The loader's per-row read width equals the fixed-width format's row width for every non-empty board. |
| HandlerCodec.EncodeRow | file_handler.py:52-59 | A written row is at least one byte long, and its bytes read back as the row's base-3 value. |
| HandlerCodec.RowBytesBound | file_handler.py:52-59 | A written row takes between 1 byte and the read width. |
| HandlerCodec.Load | file_handler.py:76-106 | A header shorter than 3 bytes is read as far as it goes, so such a file loads iff the size read is 0. Otherwise the rows fail to load iff a row read is empty. The loaded board has exactly `size` rows of `size` cells, where `size` is the header value read. Row i is the first `size` digits of `_base3` of the i-th read. The virus list is exactly the board's 1-cells in row-major order. |
| HandlerCodec.RowBack | file_handler.py:94-99 | `_base3` of a row's value, cut to the row length, is the row. |
| HandlerCodec.LoadSaveAligned | file_handler.py:41-103 | When every row but the last is written at the read width, load(save) gives back the level, the board and the row-major list of its 1-cells. |
| HandlerCodec.SmallBoardsRoundTrip | file_handler.py:52-101 | Boards up to 5×5 always round-trip: every row and the read width are one byte. |
| HandlerCodec.WideBoardsShortRows | file_handler.py:56-59 | From 6×6 on, the read width is at least two bytes, while a row of value below 256 is written as one byte. |
| HandlerCodec.LoadBody | file_handler.py:85-104 | The row loop fails iff a read of `Width(size)` bytes comes back empty. Otherwise it gives `size` rows of `size` cells, row i from the first `size` `_base3` digits of the i-th read, plus the board's 1-cells in row-major order. |
| HandlerCodec.SixBySixLost | file_handler.py:88-94 | A 6×6 level-1 board with its seed at (0, 0) saves but cannot be loaded: the loader runs out of bytes. |
| HandlerCodec.SaveFixed | file_handler.py:41-64 | The writer with rows zero-filled to the read width succeeds under the same conditions. Its file is exactly `3 + size · W` bytes. |
| HandlerCodec.LoadSaveFixed | file_handler.py:76-103 | With padded rows, every encodable board round-trips. |

## Left out

- The Tkinter presentation layer (gui.py) is not part of this model. `GameLogic.Step` and `GameLogic.Run` only sequence the engine's own operations, to state the invariants over whole games.
- File opening, closing and printing are left out; both codecs map values to byte sequences. A write that fails halfway leaves a partial file in the source; the model does not represent it.
- The default argument `size=10` of `GameLogic.__init__` (game_logic.py:32) is left out: `NewGame` always takes the size explicitly, and the default is only the caller's convenience.
- `random.randint` and `random.shuffle` are left out, replaced by the draw and direction-order parameters described above.
- `GameLogic.get_board_state` is left out: it returns a copy of the board, and a Dafny board is an immutable value, so the board itself serves.
- `FileHandler.list_saved_games` is left out: it only lists a directory.
- `barriers_remaining` is not a `GameLogic` attribute. On a plain `GameLogic`, `FileManager.save_game` would raise `AttributeError` and return False. The model treats the barrier count as a plain field of the saved snapshot.
- Python's negative-index wrap-around is left out. `place_barrier` does no bounds check, and validator sources are not bounds-checked. Callers pass in-bounds coordinates, which `PlaceBarrier`, `ValidateNoIslands` and `Seed` require.
- SaveCodec.Save and HandlerCodec.Save require a square board with cells in {0, 1, 2}, as every engine board is. `FileManager.save_game` would also encode other integers through its positional sum. `FileHandler.save_game` would raise in `int(base3_str, 3)` on a cell above 2 or below 0 and return False.
- HandlerCodec.LoadSaveAligned proves only the "if" direction of the alignment condition. A short row before the last one misaligns every later read. `SixBySixLost` and `WideBoardsShortRows` show the failure, but the converse is not proved for all boards.
- GameLogic.NextLevel and GameLogic.ResetBoard report `Stalled`/`None` when the draws run out before `level` cells are seeded. The source would keep drawing and never return when `level > size²`.

## Findings

| source | as written | input that shows it | evidently intended | confidence | as-written member | corrected member |
|---|---|---|---|---|---|---|
| file_handler.py:56-59 | Each row is written in the fewest bytes its value needs, while load_game reads `(hexlen(3^size - 1) + 1) // 2` bytes per row (file_handler.py:89-93). | A 6×6 level-1 board with its seed at (0, 0). The rows have values 243, 0, 0, 0, 0, 0 and are written as one byte each. The loader reads two bytes per row, runs out after three rows, and returns `(None, None, None)`. | Every row zero-filled to the read width, as file_manager.py:45 does. | high; not executed | HandlerCodec.SixBySixLost | HandlerCodec.SaveFixed, HandlerCodec.LoadSaveFixed |
| file_manager.py:66-69 | load_game overwrites the board of the freshly constructed game but keeps its `virus_positions`: the one random cell the constructor seeded. | A 2×2 board `[[1, 1], [0, 0]]`, saved and loaded. The virus list has one entry and misses a virus cell, so later ticks spread from the wrong cells. | The virus list rebuilt from the loaded board, as file_handler.py:100-101 does. | high; not executed | SaveCodec.LoadLosesVirus | SaveCodec.RebuiltKeepsPlay |

=== FILE: board.dfy ===
/** Vocabulary shared by the validator, the engine and both save formats:
    an N×N grid of cells 0 (free), 1 (virus) and 2 (barrier), coordinates
    as (row, column) pairs, and the four directions the engine iterates. */
module Board {

  type Pos = (int, int)
  type Dir = (int, int)
  type Grid = seq<seq<int>>

  const FREE := 0
  const VIRUS := 1
  const BARRIER := 2

  /** The direction list of validation.py and game_logic.py: right, down, left, up. */
  const Directions: seq<Dir> := [(0, 1), (1, 0), (0, -1), (-1, 0)]

  predicate InBounds(p: Pos, n: int) {
    0 <= p.0 < n && 0 <= p.1 < n
  }

  /** `b` has `n` rows of `n` cells each. */
  predicate Square(b: Grid, n: int) {
    |b| == n && forall i :: 0 <= i < n ==> |b[i]| == n
  }

  /** Every cell holds one of the three states. */
  predicate Ternary(b: Grid) {
    forall i, j :: 0 <= i < |b| && 0 <= j < |b[i]| ==> 0 <= b[i][j] <= 2
  }

  function Cell(b: Grid, p: Pos): int
    requires 0 <= p.0 < |b| && 0 <= p.1 < |b[p.0]|
  {
    b[p.0][p.1]
  }

  /** The board with the cell at `p` replaced by `v`, every other cell kept. */
  function SetCell(b: Grid, p: Pos, v: int): (r: Grid)
    requires 0 <= p.0 < |b| && 0 <= p.1 < |b[p.0]|
    ensures |r| == |b| && forall i :: 0 <= i < |b| ==> |r[i]| == |b[i]|
    ensures forall q: Pos :: 0 <= q.0 < |b| && 0 <= q.1 < |b[q.0]| ==>
              Cell(r, q) == if q == p then v else Cell(b, q)
  {
    b[p.0 := b[p.0][p.1 := v]]
  }

  /** The all-free board the engine starts each level from. */
  function Zeros(n: nat): (r: Grid)
    ensures Square(r, n) && Ternary(r)
    ensures forall p: Pos :: InBounds(p, n) ==> Cell(r, p) == FREE
  {
    seq(n, _ => seq(n, _ => FREE))
  }

  function Neighbour(p: Pos, d: Dir): Pos {
    (p.0 + d.0, p.1 + d.1)
  }

  /** `q` is one step from `p` in one of the four directions. */
  predicate Adjacent(p: Pos, q: Pos) {
    q == Neighbour(p, Directions[0]) || q == Neighbour(p, Directions[1]) ||
    q == Neighbour(p, Directions[2]) || q == Neighbour(p, Directions[3])
  }

  predicate FreeAt(b: Grid, n: int, p: Pos)
    requires Square(b, n)
  {
    InBounds(p, n) && Cell(b, p) == FREE
  }

  /** Some in-bounds 4-neighbour of `p` is free. */
  predicate HasFreeNeighbour(b: Grid, n: int, p: Pos)
    requires Square(b, n)
  {
    exists d: Dir :: d in Directions && FreeAt(b, n, Neighbour(p, d))
  }

  /** A random.shuffle of the direction list: the same four directions in some order. */
  predicate IsShuffle(dirs: seq<Dir>) {
    multiset(dirs) == multiset(Directions)
  }

  predicate Distinct<T(==)>(s: seq<T>) {
    forall i, j :: 0 <= i < j < |s| ==> s[i] != s[j]
  }

  function Elems<T(==)>(s: seq<T>): set<T> {
    set x | x in s
  }

  /** Every coordinate of an n×n board. */
  function AllCells(n: int): (r: set<Pos>)
    ensures forall p: Pos :: p in r <==> InBounds(p, n)
  {
    set i, j | 0 <= i < n && 0 <= j < n :: (i, j)
  }

  /** Number of free cells, counted row by row as `sum(row.count(0))` does. */
  function FreeCount(b: Grid): nat {
    if |b| == 0 then 0 else CountFree(b[0]) + FreeCount(b[1..])
  }

  function CountFree(row: seq<int>): nat {
    if |row| == 0 then 0 else (if row[0] == FREE then 1 else 0) + CountFree(row[1..])
  }

  /** The row-major list of coordinates whose cell is 1, rows from `i` on. */
  function OnesFrom(b: Grid, i: nat): (r: seq<Pos>)
    requires i <= |b|
    ensures forall k :: 0 <= k < |r| ==> i <= r[k].0 < |b| && 0 <= r[k].1 < |b[r[k].0]|
    ensures forall k :: 0 <= k < |r| ==> Cell(b, r[k]) == VIRUS
    ensures forall p: Pos :: i <= p.0 < |b| && 0 <= p.1 < |b[p.0]| && Cell(b, p) == VIRUS ==> p in r
    ensures forall k, l :: 0 <= k < l < |r| ==> Before(r[k], r[l])
    decreases |b| - i
  {
    if i == |b| then [] else RowOnes(b[i], i, 0) + OnesFrom(b, i + 1)
  }

  /** The coordinates (i, j), j from `j0` on, whose entry in `row` is 1. */
  function RowOnes(row: seq<int>, i: int, j0: nat): (r: seq<Pos>)
    requires j0 <= |row|
    ensures forall k :: 0 <= k < |r| ==> r[k].0 == i && j0 <= r[k].1 < |row| && row[r[k].1] == VIRUS
    ensures forall j :: j0 <= j < |row| && row[j] == VIRUS ==> (i, j) in r
    ensures forall k, l :: 0 <= k < l < |r| ==> r[k].1 < r[l].1
    decreases |row| - j0
  {
    if j0 == |row| then []
    else if row[j0] == VIRUS then [(i, j0)] + RowOnes(row, i, j0 + 1)
    else RowOnes(row, i, j0 + 1)
  }

  /** Row-major (lexicographic) order on coordinates. */
  predicate Before(p: Pos, q: Pos) {
    p.0 < q.0 || (p.0 == q.0 && p.1 < q.1)
  }

  /** `virus` lists exactly the 1-cells of the board, each once. */
  ghost predicate Mirrors(b: Grid, n: int, virus: seq<Pos>)
    requires Square(b, n)
  {
    && (forall k :: 0 <= k < |virus| ==> InBounds(virus[k], n) && Cell(b, virus[k]) == VIRUS)
    && Distinct(virus)
    && (forall p: Pos :: InBounds(p, n) && Cell(b, p) == VIRUS ==> p in virus)
  }

  // ---------------------------------------------------------------------
  // Facts about the vocabulary

  /** The row-major list of 1-cells mirrors the board: scanning the board,
      as the `FileHandler` loader does, rebuilds a valid virus list. */
  lemma OnesMirror(b: Grid, n: int)
    requires Square(b, n)
    ensures Mirrors(b, n, OnesFrom(b, 0))
  {
    var r := OnesFrom(b, 0);
    forall k, l | 0 <= k < l < |r| ensures r[k] != r[l] {
      assert Before(r[k], r[l]);
    }
  }

  /** A free cell exists exactly when the free-cell count is positive. */
  lemma {:induction false} FreeCountZero(b: Grid)
    ensures FreeCount(b) == 0 <==>
            forall i, j :: 0 <= i < |b| && 0 <= j < |b[i]| ==> b[i][j] != FREE
  {
    if |b| > 0 {
      FreeCountZero(b[1..]);
      CountFreeZero(b[0]);
      if FreeCount(b) == 0 {
        forall i, j | 0 <= i < |b| && 0 <= j < |b[i]| ensures b[i][j] != FREE {
          if i > 0 {
            assert b[i] == b[1..][i - 1];
          }
        }
      } else if CountFree(b[0]) == 0 {
        var i, j :| 0 <= i < |b[1..]| && 0 <= j < |b[1..][i]| && b[1..][i][j] == FREE;
        assert b[i + 1][j] == FREE;
      }
    }
  }

  lemma {:induction false} CountFreeZero(row: seq<int>)
    ensures CountFree(row) == 0 <==> forall j :: 0 <= j < |row| ==> row[j] != FREE
  {
    if |row| > 0 {
      CountFreeZero(row[1..]);
      if CountFree(row) == 0 {
        forall j | 0 <= j < |row| ensures row[j] != FREE {
          if j > 0 {
            assert row[j] == row[1..][j - 1];
          }
        }
      }
    }
  }

  /** A duplicate-free list has as many distinct elements as entries. */
  lemma {:induction false} DistinctCard<T>(s: seq<T>)
    requires Distinct(s)
    ensures |Elems(s)| == |s|
  {
    if |s| > 0 {
      var init := s[..|s| - 1];
      assert Distinct(init);
      DistinctCard(init);
      assert Elems(s) == Elems(init) + {s[|s| - 1]};
      assert forall k :: 0 <= k < |init| ==> init[k] != s[|s| - 1];
    }
  }

  /** An n×n board has n² coordinates. */
  lemma AllCellsCard(n: nat)
    ensures |AllCells(n)| == n * n
  {
    BlockCard(n, n);
    assert AllCells(n) == Block(n, n);
  }

  function Block(k: nat, n: nat): (r: set<Pos>)
    ensures forall p: Pos :: p in r <==> 0 <= p.0 < k && 0 <= p.1 < n
  {
    set i, j | 0 <= i < k && 0 <= j < n :: (i, j)
  }

  function RowCells(i: int, m: nat): (r: set<Pos>)
    ensures forall p: Pos :: p in r <==> p.0 == i && 0 <= p.1 < m
  {
    set j | 0 <= j < m :: (i, j)
  }

  lemma {:induction false} BlockCard(k: nat, n: nat)
    ensures |Block(k, n)| == k * n
  {
    if k > 0 {
      var prev, row := Block(k - 1, n), RowCells(k - 1, n);
      BlockCard(k - 1, n);
      RowCellsCard(k - 1, n);
      assert Block(k, n) == prev + row;
      assert prev * row == {};
      assert |prev + row| == |prev| + |row|;
      RowsStep(k, n);
    }
  }

  lemma RowsStep(k: int, n: int)
    ensures (k - 1) * n + n == k * n
  {
  }

  lemma {:induction false} RowCellsCard(i: int, m: nat)
    ensures |RowCells(i, m)| == m
  {
    if m > 0 {
      RowCellsCard(i, m - 1);
      assert RowCells(i, m) == RowCells(i, m - 1) + {(i, m - 1)};
    }
  }

  /** Distinct in-bounds coordinates number at most n². */
  lemma DistinctCellsBound(s: seq<Pos>, n: nat)
    requires Distinct(s)
    requires forall k :: 0 <= k < |s| ==> InBounds(s[k], n)
    ensures |s| <= n * n
  {
    DistinctCard(s);
    AllCellsCard(n);
    SubsetCard(Elems(s), AllCells(n));
  }

  lemma {:induction false} SubsetCard<T>(a: set<T>, b: set<T>)
    requires a <= b
    ensures |a| <= |b|
    decreases a
  {
    if a != {} {
      var x :| x in a;
      SubsetCard(a - {x}, b - {x});
    }
  }
}

=== FILE: file_handler.dfy ===
/** The variable-width save format of file_handler.py, the one gui.py saves
    and loads through `FileHandler`: a 2-byte big-endian size, a
    level byte, then each row's base-3 value in the shortest even number of
    hex digits. The loader reads every row at one fixed width, so the two
    sides agree only while every row happens to need that width. */
module HandlerCodec {
  import opened Wrappers
  import opened Board
  import opened Radix
  import SaveCodec

  /** The fields save_game reads from a game. */
  datatype Snapshot = Snapshot(size: int, level: int, board: Grid)

  /** load_game's `(board, level, virus_positions)`. */
  datatype Loaded = Loaded(board: Grid, level: int, virus: seq<Pos>)

  /** The values `to_bytes(2)` and `to_bytes(1)` accept. */
  predicate Encodable(s: Snapshot) {
    0 <= s.size < 65536 && 0 <= s.level < 256
  }

  function Header(s: Snapshot): (r: seq<byte>)
    requires Encodable(s)
    ensures |r| == 3 && FromBytes(r[..2]) == s.size && r[2] == s.level
  {
    BytesRoundTrip(s.size, 2);
    assert Pow(256, 2) == 65536;
    SmallMod(s.size, 65536);
    var r := ToBytes(s.size, 2) + [s.level as byte];
    assert r[..2] == ToBytes(s.size, 2);
    r
  }

  /** One row as written: `format(int(digits, 3), 'x')`, a '0' prepended
      when the digit count is odd, as bytes. No padding to a row width. */
  function EncodeRow(row: seq<int>): (r: seq<byte>)
    requires TernaryRow(row)
    ensures |r| >= 1 && FromBytes(r) == RowValue(row)
  {
    HexFieldValue(RowValue(row), 0);
    HexField(RowValue(row), 0)
  }

  function RowFields(rows: Grid): (r: seq<seq<byte>>)
    requires forall i :: 0 <= i < |rows| ==> TernaryRow(rows[i])
    ensures |r| == |rows| && forall i :: 0 <= i < |rows| ==> r[i] == EncodeRow(rows[i])
  {
    if rows == [] then [] else [EncodeRow(rows[0])] + RowFields(rows[1..])
  }

  /** save_game: None where `to_bytes` raises `OverflowError` (the source
      prints and returns False). */
  function Save(s: Snapshot): (r: Option<seq<byte>>)
    requires Square(s.board, s.size) && Ternary(s.board)
    ensures r.Some? <==> Encodable(s)
    ensures r.Some? ==> |r.value| >= 3 + s.size
    ensures r.Some? ==> FromBytes(r.value[..2]) == s.size && r.value[2] == s.level
  {
    if !Encodable(s) then None
    else
      SaveCodec.TernaryRows(s.board);
      var fields := RowFields(s.board);
      forall i | 0 <= i < |fields| ensures |fields[i]| >= 1 {
        HexFieldValue(RowValue(s.board[i]), 0);
      }
      ConcatAtLeast(fields);
      var h := Header(s);
      var r := h + Concat(fields);
      assert r[..2] == h[..2] && r[2] == h[2];
      Some(r)
  }

  /** `bytes_to_read`: whole bytes for the hex digits of 3^size - 1. */
  function Width(size: nat): (w: nat)
    ensures w >= 1
  {
    (HexLen(Pow(3, size) - 1) + 1) / 2
  }

  /** `bytes_to_read` is the least number of bytes, and at least one, that
      holds 3^size - 1: its hex digits two to a byte, rounded up. */
  lemma WidthLeast(size: nat)
    ensures Pow(3, size) - 1 < Pow(256, Width(size))
    ensures Width(size) >= 2 ==> Pow(256, Width(size) - 1) <= Pow(3, size) - 1
  {
    var m, w := Pow(3, size) - 1, Width(size);
    assert Pow(16, 2) == 256;
    PowMul(16, 2, w);
    HexLenBound(m, 2 * w);
    if w >= 2 {
      PowMul(16, 2, w - 1);
      HexLenBound(m, 2 * (w - 1));
    }
  }

  /** The read width of this loader and the row width of the fixed-width
      format are the same number for every non-empty board. */
  lemma WidthAgrees(size: nat)
    requires size >= 1
    ensures Width(size) == SaveCodec.RowWidth(size)
  {
    assert Pow(3, size) >= 3;
    HexBytesAgree(Pow(3, size) - 1);
  }

  /** A row never takes more than the read width, and at least one byte. */
  lemma RowBytesBound(row: seq<int>)
    requires TernaryRow(row)
    ensures 1 <= |EncodeRow(row)| <= Width(|row|)
  {
    HexFieldValue(RowValue(row), 0);
    HexLenMono(RowValue(row), Pow(3, |row|) - 1);
  }

  /** Each piece read back through `_base3(num, size)`, of which the first
      `size` digits become the row. */
  function DigitRows(chunks: seq<seq<byte>>, size: nat): (r: Grid)
    ensures |r| == |chunks|
    ensures forall i :: 0 <= i < |chunks| ==> r[i] == Base3(FromBytes(chunks[i]), size)[..size]
  {
    if chunks == [] then [] else [Base3(FromBytes(chunks[0]), size)[..size]] + DigitRows(chunks[1..], size)
  }

  /** load_game. `int.from_bytes` of a short read does not raise, so a
      short header still gives a size and a level; the row loop raises on
      an empty read. The virus list is every 1-cell, row by row. */
  function Load(data: seq<byte>): (r: Option<Loaded>)
    ensures |data| >= 3 ==>
              (r.Some? <==> ReadChunks(data[3..], Width(FromBytes(data[..2])), FromBytes(data[..2])).Some?)
    ensures |data| < 3 ==> (r.Some? <==> FromBytes(data[..if |data| < 2 then |data| else 2]) == 0)
    ensures r.Some? && |data| >= 3 ==> r.value.level == data[2]
    ensures r.Some? ==> var n := |r.value.board|;
              Square(r.value.board, n) && Ternary(r.value.board) && Mirrors(r.value.board, n, r.value.virus)
    ensures r.Some? ==> forall k, l :: 0 <= k < l < |r.value.virus| ==> Before(r.value.virus[k], r.value.virus[l])
    ensures r.Some? ==> Square(r.value.board, FromBytes(data[..if |data| < 2 then |data| else 2]))
    ensures r.Some? && |data| >= 3 ==> var size := FromBytes(data[..2]);
              forall i :: 0 <= i < size ==>
                r.value.board[i] == Base3(FromBytes(ReadChunks(data[3..], Width(size), size).value[i]), size)[..size]
  {
    var size := FromBytes(data[..if |data| < 2 then |data| else 2]);
    // Below three bytes the level read is empty, so 0, and no row bytes remain.
    if |data| < 3 then LoadBody(size, 0, []) else LoadBody(size, data[2] as nat, data[3..])
  }

  /** The row loop of load_game: `size` reads of `Width(size)` bytes from
      what follows the header, each turned into the first `size` digits of
      `_base3`, then the scan for 1-cells. */
  function LoadBody(size: nat, level: nat, body: seq<byte>): (r: Option<Loaded>)
    ensures r.Some? <==> ReadChunks(body, Width(size), size).Some?
    ensures r.Some? ==> r.value.level == level
    ensures r.Some? ==> Square(r.value.board, size) && Ternary(r.value.board)
    ensures r.Some? ==> Mirrors(r.value.board, size, r.value.virus)
    ensures r.Some? ==> forall k, l :: 0 <= k < l < |r.value.virus| ==> Before(r.value.virus[k], r.value.virus[l])
    ensures r.Some? ==> forall i :: 0 <= i < size ==>
              r.value.board[i] == Base3(FromBytes(ReadChunks(body, Width(size), size).value[i]), size)[..size]
  {
    match ReadChunks(body, Width(size), size)
    case None => None
    case Some(chunks) =>
      var rows := DigitRows(chunks, size);
      assert Square(rows, size) by {
        forall i | 0 <= i < size ensures |rows[i]| == size {
          assert rows[i] == Base3(FromBytes(chunks[i]), size)[..size];
        }
      }
      SaveCodec.TernaryRows(rows);
      OnesMirror(rows, size);
      Some(Loaded(rows, level, OnesFrom(rows, 0)))
  }

  /** The round trip holds when every row but the last was written at
      exactly the read width (the last read may come up short, and a short
      read is used as it is): the loader then gets back the level, the
      board and its virus cells. */
  lemma LoadSaveAligned(s: Snapshot)
    requires Square(s.board, s.size) && Ternary(s.board) && Encodable(s)
    requires forall i :: 0 <= i < s.size - 1 ==> |EncodeRow(s.board[i])| == Width(s.size)
    ensures Load(Save(s).value) == Some(Loaded(s.board, s.level, OnesFrom(s.board, 0)))
  {
    SaveCodec.TernaryRows(s.board);
    var fields := RowFields(s.board);
    assert Save(s).value == Header(s) + Concat(fields);
    forall i | 0 <= i < s.size
      ensures 1 <= |fields[i]| <= Width(s.size) && FromBytes(fields[i]) == RowValue(s.board[i])
    {
      RowBytesBound(s.board[i]);
      HexFieldValue(RowValue(s.board[i]), 0);
    }
    LoadFields(s, fields);
  }

  /** A header followed by one piece per row, each holding that row's value,
      every piece but the last at the read width, loads as the snapshot's
      board. */
  lemma LoadFields(s: Snapshot, fields: seq<seq<byte>>)
    requires Square(s.board, s.size) && Ternary(s.board) && Encodable(s) && |fields| == s.size
    requires forall i :: 0 <= i < s.size ==>
               1 <= |fields[i]| <= Width(s.size) && FromBytes(fields[i]) == RowValue(s.board[i])
    requires forall i :: 0 <= i < s.size - 1 ==> |fields[i]| == Width(s.size)
    ensures Load(Header(s) + Concat(fields)) == Some(Loaded(s.board, s.level, OnesFrom(s.board, 0)))
  {
    var data := Header(s) + Concat(fields);
    assert data[..2] == Header(s)[..2] && data[2] == s.level;
    assert data[2..][1..] == Concat(fields);
    assert data[2..][..1] == [data[2]];
    assert FromBytes([data[2]]) == s.level;
    ReadConcatLast(fields, Width(s.size));
    SaveCodec.TernaryRows(s.board);
    DigitRowsBack(s.board, s.size, fields);
  }

  lemma DigitRowsBack(rows: Grid, size: nat, fields: seq<seq<byte>>)
    requires |rows| == |fields| == size
    requires forall i :: 0 <= i < size ==>
               |rows[i]| == size && TernaryRow(rows[i]) && FromBytes(fields[i]) == RowValue(rows[i])
    ensures DigitRows(fields, size) == rows
  {
    var d := DigitRows(fields, size);
    forall i | 0 <= i < size ensures d[i] == rows[i] {
      RowBack(rows[i], FromBytes(fields[i]));
    }
  }

  /** `_base3` of a row's value, cut to the row's length, is the row. */
  lemma RowBack(row: seq<int>, v: nat)
    requires TernaryRow(row) && v == RowValue(row)
    ensures Base3(v, |row|)[..|row|] == row
  {
    Base3IsDigits(v, |row|);
    DigitsOfRow(row);
    assert Digits(v, |row|)[..|row|] == Digits(v, |row|);
  }

  /** Boards of at most 5×5 always round-trip: 3^5 - 1 = 242 fits one byte,
      so every row and the read width are one byte. */
  lemma SmallBoardsRoundTrip(s: Snapshot)
    requires Square(s.board, s.size) && Ternary(s.board) && Encodable(s) && s.size <= 5
    ensures Load(Save(s).value) == Some(Loaded(s.board, s.level, OnesFrom(s.board, 0)))
  {
    SaveCodec.TernaryRows(s.board);
    PowMono(3, s.size, 5);
    assert Pow(3, 5) == 243 && Pow(16, 2) == 256;
    HexLenBound(Pow(3, s.size) - 1, 2);
    forall i | 0 <= i < s.size ensures |EncodeRow(s.board[i])| == Width(s.size) {
      RowBytesBound(s.board[i]);
    }
    LoadSaveAligned(s);
  }

  /** From 6×6 on, the read width is two bytes or more, while a row of
      value below 256 (an all-free row, say) is written as one byte. */
  lemma WideBoardsShortRows(size: nat, row: seq<int>)
    requires size >= 6 && TernaryRow(row) && RowValue(row) < 256
    ensures Width(size) >= 2 && |EncodeRow(row)| == 1
  {
    PowMono(3, 6, size);
    assert Pow(3, 6) == 729 && Pow(16, 2) == 256;
    HexLenBound(Pow(3, size) - 1, 2);
    HexLenBound(RowValue(row), 2);
  }

  /** The first board of a 6×6 game at level 1 with its seed at (0, 0): its
      rows are 243 and five zeros, one byte each, so the loader, reading two
      bytes per row, runs out after three rows and the save cannot be
      loaded. */
  lemma SixBySixLost()
    ensures var s := Snapshot(6, 1, SetCell(Zeros(6), (0, 0), VIRUS));
            Save(s).Some? && Load(Save(s).value).None?
  {
    var s := Snapshot(6, 1, SetCell(Zeros(6), (0, 0), VIRUS));
    SixBySixSaved(s.board);
    var data := Save(s).value;
    SixWidth();
    assert ReadChunks(data[3..], Width(6), 6).None?;
  }

  /** The 6×6 save is a 3-byte header for size 6 followed by six one-byte
      rows. */
  lemma SixBySixSaved(b: Grid)
    requires b == SetCell(Zeros(6), (0, 0), VIRUS)
    ensures Square(b, 6) && Ternary(b)
    ensures var s := Snapshot(6, 1, b);
            Save(s).Some? && |Save(s).value| == 9 && FromBytes(Save(s).value[..2]) == 6
  {
    var s := Snapshot(6, 1, b);
    SixBySixRows(b);
    SaveCodec.TernaryRows(b);
    var fields := RowFields(b);
    forall i | 0 <= i < 6 ensures |fields[i]| == 1 {
      WideBoardsShortRows(6, b[i]);
    }
    ConcatLength(fields, 1);
    assert Save(s).value == Header(s) + Concat(fields);
  }

  /** The seeded 6×6 board is ternary, with rows of value 243 and 0. */
  lemma SixBySixRows(b: Grid)
    requires b == SetCell(Zeros(6), (0, 0), VIRUS)
    ensures Square(b, 6) && Ternary(b)
    ensures forall i :: 0 <= i < 6 ==> TernaryRow(b[i]) && RowValue(b[i]) < 256
  {
    SixBySixShape(b);
    SixBySixValues();
    forall i, j | 0 <= i < 6 && 0 <= j < 6 ensures 0 <= b[i][j] <= 2 {
      assert Cell(b, (i, j)) == b[i][j];
    }
  }

  lemma SixBySixShape(b: Grid)
    requires b == SetCell(Zeros(6), (0, 0), VIRUS)
    ensures Square(b, 6)
    ensures b[0] == [1, 0, 0, 0, 0, 0]
    ensures forall i :: 1 <= i < 6 ==> b[i] == [0, 0, 0, 0, 0, 0]
  {
    forall i | 0 <= i < 6 ensures b[i] == if i == 0 then [1, 0, 0, 0, 0, 0] else [0, 0, 0, 0, 0, 0] {
      forall j | 0 <= j < 6 ensures b[i][j] == if i == 0 && j == 0 then 1 else 0 {
        assert Cell(b, (i, j)) == b[i][j];
      }
    }
  }

  lemma SixBySixValues()
    ensures RowValue([1, 0, 0, 0, 0, 0]) == 243 && RowValue([0, 0, 0, 0, 0, 0]) == 0
  {
    var row := [1, 0, 0, 0, 0, 0];
    RowValueFront(row);
    assert row[1..] == [0, 0, 0, 0, 0];
    RowValueZero([0, 0, 0, 0, 0]);
    RowValueZero([0, 0, 0, 0, 0, 0]);
    assert Pow(3, 5) == 243;
  }

  lemma SixWidth()
    ensures Width(6) == 2
  {
    assert Pow(3, 6) == 729 && Pow(16, 2) == 256 && Pow(16, 3) == 4096;
    HexLenBound(728, 2);
    HexLenBound(728, 3);
  }

  // ---------------------------------------------------------------------
  // Rows padded to the read width

  /** save_game with each row zero-filled to the width the loader reads, as
      the fixed-width format does. */
  function SaveFixed(s: Snapshot): (r: Option<seq<byte>>)
    requires Square(s.board, s.size) && Ternary(s.board)
    ensures r.Some? <==> Encodable(s)
    ensures r.Some? ==> |r.value| == 3 + s.size * Width(s.size)
    ensures r.Some? ==> FromBytes(r.value[..2]) == s.size && r.value[2] == s.level
  {
    if !Encodable(s) then None
    else
      SaveCodec.TernaryRows(s.board);
      var fields := PaddedFields(s.board, s.size);
      ConcatLength(fields, Width(s.size));
      var h := Header(s);
      var r := h + Concat(fields);
      assert r[..2] == h[..2] && r[2] == h[2];
      Some(r)
  }

  /** Each row's value padded to twice the read width in hex digits. */
  function PaddedFields(rows: Grid, size: nat): (r: seq<seq<byte>>)
    requires forall i :: 0 <= i < |rows| ==> |rows[i]| == size && TernaryRow(rows[i])
    ensures |r| == |rows|
    ensures forall i :: 0 <= i < |rows| ==> |r[i]| == Width(size) && FromBytes(r[i]) == RowValue(rows[i])
  {
    if rows == [] then []
    else
      var v := RowValue(rows[0]);
      HexLenMono(v, Pow(3, size) - 1);
      HexFieldValue(v, 2 * Width(size));
      [HexField(v, 2 * Width(size))] + PaddedFields(rows[1..], size)
  }

  /** With padded rows every encodable board round-trips. */
  lemma LoadSaveFixed(s: Snapshot)
    requires Square(s.board, s.size) && Ternary(s.board) && Encodable(s)
    ensures Load(SaveFixed(s).value) == Some(Loaded(s.board, s.level, OnesFrom(s.board, 0)))
  {
    SaveCodec.TernaryRows(s.board);
    var fields := PaddedFields(s.board, s.size);
    assert SaveFixed(s).value == Header(s) + Concat(fields);
    LoadFields(s, fields);
  }

  /** Concatenated non-empty pieces take at least one byte each. */
  lemma {:induction false} ConcatAtLeast(chunks: seq<seq<byte>>)
    requires forall i :: 0 <= i < |chunks| ==> |chunks[i]| >= 1
    ensures |Concat(chunks)| >= |chunks|
    decreases |chunks|
  {
    if chunks != [] {
      ConcatAtLeast(chunks[1..]);
    }
  }
}

=== FILE: file_manager.dfy ===
/** The fixed-width save format of file_manager.py: a 2-byte big-endian
    size, a level byte, a barriers byte, then one row per board row, each
    the row's base-3 value as a big-endian number of exactly
    `(bit_length(3^size - 1) + 7) // 8` bytes. */
module SaveCodec {
  import opened Wrappers
  import opened Board
  import opened Radix
  import opened Validation
  import opened GameLogic

  /** The fields save_game reads from a game. */
  datatype Snapshot = Snapshot(size: int, level: int, barriers: int, board: Grid)

  /** What load_game hands back: the rebuilt game and the barrier count it
      stores on it. */
  datatype Loaded = Loaded(game: Game, barriers: int)

  /** The fields `struct.pack(">H")` and `struct.pack("B")` accept. */
  predicate Encodable(s: Snapshot) {
    0 <= s.size < 65536 && 0 <= s.level < 256 && 0 <= s.barriers < 256
  }

  /** The largest row value, 3^size - 1. */
  function MaxRow(size: nat): nat {
    Pow(3, size) - 1
  }

  /** `bytes_per_row`: whole bytes for the bits of the largest row value. */
  function RowWidth(size: nat): nat {
    (BitLength(MaxRow(size)) + 7) / 8
  }

  /** `bytes_per_row` is the least number of bytes that holds 3^size - 1. */
  lemma RowWidthLeast(size: nat)
    ensures MaxRow(size) < Pow(256, RowWidth(size))
    ensures RowWidth(size) >= 1 ==> Pow(256, RowWidth(size) - 1) <= MaxRow(size)
  {
    var m, w := MaxRow(size), RowWidth(size);
    assert Pow(2, 8) == 256;
    PowMul(2, 8, w);
    BitLengthBound(m, 8 * w);
    if w >= 1 {
      PowMul(2, 8, w - 1);
      BitLengthBound(m, 8 * (w - 1));
    }
  }

  /** One row: its positional base-3 value in upper-case hex, zero-filled to
      two digits per byte and evened out, as bytes. */
  function EncodeRow(row: seq<int>, size: nat): (r: seq<byte>)
    requires |row| == size && TernaryRow(row)
    ensures |r| >= 1 && |r| >= RowWidth(size)
    ensures FromBytes(r) == RowValue(row)
  {
    PositionalIsRowValue(row);
    HexFieldValue(RowValue(row), 2 * RowWidth(size));
    HexField(Positional(row, size), 2 * RowWidth(size))
  }

  /** Every ternary row of a non-empty board fits its width exactly, and its
      bytes read back as its base-3 value. */
  lemma RowFits(row: seq<int>, size: nat)
    requires |row| == size >= 1 && TernaryRow(row)
    ensures RowWidth(size) >= 1
    ensures EncodeRow(row, size) == ToBytes(RowValue(row), RowWidth(size))
    ensures FromBytes(EncodeRow(row, size)) == RowValue(row)
  {
    var v, m := RowValue(row), MaxRow(size);
    PositionalIsRowValue(row);
    assert BitLength(m) >= 1 by {
      assert Pow(3, size) >= 3;
    }
    assert BitLength(v) <= BitLength(m) by {
      BitLengthBound(m, BitLength(m));
      BitLengthBound(v, BitLength(m));
    }
    HexFieldFixed(v, RowWidth(size));
  }

  function EncodeRows(rows: Grid, size: nat): seq<byte>
    requires forall i :: 0 <= i < |rows| ==> |rows[i]| == size && TernaryRow(rows[i])
  {
    Concat(RowFields(rows, size))
  }

  /** The encoded rows, one byte string per row. */
  function RowFields(rows: Grid, size: nat): (r: seq<seq<byte>>)
    requires forall i :: 0 <= i < |rows| ==> |rows[i]| == size && TernaryRow(rows[i])
    ensures |r| == |rows| && forall i :: 0 <= i < |rows| ==> r[i] == EncodeRow(rows[i], size)
  {
    if rows == [] then [] else [EncodeRow(rows[0], size)] + RowFields(rows[1..], size)
  }

  /** Each piece read back as its low `size` base-3 digits. */
  function DigitRows(chunks: seq<seq<byte>>, size: nat): (r: Grid)
    ensures |r| == |chunks| && forall i :: 0 <= i < |chunks| ==> r[i] == Digits(FromBytes(chunks[i]), size)
  {
    if chunks == [] then [] else [Digits(FromBytes(chunks[0]), size)] + DigitRows(chunks[1..], size)
  }

  /** save_game: None where one of the `struct.pack` calls raises (the
      source then prints and returns False). */
  function Save(s: Snapshot): (r: Option<seq<byte>>)
    requires Square(s.board, s.size) && Ternary(s.board)
    ensures r.Some? <==> Encodable(s)
    ensures r.Some? ==> |r.value| >= 4
    ensures r.Some? ==> FromBytes(r.value[..2]) == s.size && r.value[2] == s.level && r.value[3] == s.barriers
  {
    if !Encodable(s) then None
    else
      TernaryRows(s.board);
      var h, body := Header(s), EncodeRows(s.board, s.size);
      var r := h + body;
      assert r[..2] == h[..2] && r[2] == h[2] && r[3] == h[3];
      Some(r)
  }

  /** A saved file is the header and `size` rows of the row width each. */
  lemma SaveLength(s: Snapshot)
    requires Square(s.board, s.size) && Ternary(s.board) && Encodable(s)
    ensures |Save(s).value| == 4 + s.size * RowWidth(s.size)
  {
    TernaryRows(s.board);
    RowsLength(s.board, s.size);
  }

  /** The four header bytes: `>H` size, `B` level, `B` barriers. */
  function Header(s: Snapshot): (r: seq<byte>)
    requires Encodable(s)
    ensures |r| == 4 && FromBytes(r[..2]) == s.size && r[2] == s.level && r[3] == s.barriers
  {
    BytesRoundTrip(s.size, 2);
    assert Pow(256, 2) == 65536;
    SmallMod(s.size, 65536);
    var r := ToBytes(s.size, 2) + [s.level as byte, s.barriers as byte];
    assert r[..2] == ToBytes(s.size, 2);
    r
  }

  /** Every row of a ternary board takes the same number of bytes. */
  lemma RowsLength(rows: Grid, size: nat)
    requires forall i :: 0 <= i < |rows| ==> |rows[i]| == size && TernaryRow(rows[i])
    ensures size >= 1 || rows == [] ==> |EncodeRows(rows, size)| == |rows| * RowWidth(size)
  {
    if rows == [] {
      assert EncodeRows(rows, size) == [];
    } else if size >= 1 {
      var chunks := RowFields(rows, size);
      forall i | 0 <= i < |chunks| ensures |chunks[i]| == RowWidth(size) {
        RowFits(rows[i], size);
      }
      ConcatLength(chunks, RowWidth(size));
    }
  }

  /** A grid is ternary exactly when each of its rows is. */
  lemma TernaryRows(b: Grid)
    ensures Ternary(b) <==> forall i :: 0 <= i < |b| ==> TernaryRow(b[i])
  {
    if forall i :: 0 <= i < |b| ==> TernaryRow(b[i]) {
      forall i, j | 0 <= i < |b| && 0 <= j < |b[i]| ensures 0 <= b[i][j] <= 2 {
        assert TernaryRow(b[i]);
      }
    }
  }

  /** The `for i in range(size)` loop of load_game: `size` reads of up to
      `w` bytes, each turned into its low `size` base-3 digits by the
      `num % 3`, `num // 3` loop; a short read is used as it is. */
  function DecodeRows(data: seq<byte>, size: nat, w: nat): (r: Option<Grid>)
    ensures r.Some? <==> ReadChunks(data, w, size).Some?
    ensures r.Some? ==> Square(r.value, size) && Ternary(r.value)
    ensures r.Some? ==> forall i :: 0 <= i < size ==>
              RowValue(r.value[i]) == FromBytes(ReadChunks(data, w, size).value[i]) % Pow(3, size)
  {
    match ReadChunks(data, w, size)
    case None => None
    case Some(chunks) =>
      var rows := DigitRows(chunks, size);
      forall i | 0 <= i < size
        ensures RowValue(rows[i]) == FromBytes(chunks[i]) % Pow(3, size)
      {
        DigitsValue(FromBytes(chunks[i]), size);
      }
      TernaryRows(rows);
      Some(rows)
  }

  /** load_game: None on a file shorter than its 4-byte header (`struct.unpack`
      raises), on size 0 (the `GameLogic(0)` constructor raises in
      `randint(0, -1)`) and when the rows run out. The game is the freshly
      constructed one, seeded with one cell from `draw`, with level and
      board overwritten; its virus list is left as the constructor made it. */
  function Load(data: seq<byte>, draw: Pos): (r: Option<Loaded>)
    ensures |data| < 4 ==> r.None?
    ensures |data| >= 4 && FromBytes(data[..2]) == 0 ==> r.None?
    ensures r.Some? ==> var g := r.value.game;
              g.size == FromBytes(data[..2]) && g.level == data[2] && r.value.barriers == data[3] &&
              Shaped(g) && Ternary(g.board) && |g.virus| == 1 &&
              g.turn == 0 && !g.gameOver && g.winner == Undecided
    ensures |data| >= 4 && FromBytes(data[..2]) >= 1 ==>
              (r.None? <==> ReadChunks(data[4..], RowWidth(FromBytes(data[..2])), FromBytes(data[..2])).None?)
    ensures r.Some? ==> |data| >= 4
    ensures r.Some? ==> DecodeRows(data[4..], r.value.game.size, RowWidth(r.value.game.size)) == Some(r.value.game.board)
  {
    if |data| < 4 then None
    else
      var size := FromBytes(data[..2]);
      if size == 0 then None
      else
      match NewGame(size, [(draw.0 % size, draw.1 % size)])
      case None => None
      case Some(made) =>
        match DecodeRows(data[4..], size, RowWidth(size))
        case None => None
        case Some(rows) => Some(Loaded(made.(level := data[2], board := rows), data[3]))
  }

  /** Decoding what the row encoder wrote gives the rows back; bytes after
      the last row are ignored. */
  lemma DecodeEncode(rows: Grid, size: nat, extra: seq<byte>)
    requires size >= 1 && |rows| == size
    requires forall i :: 0 <= i < |rows| ==> |rows[i]| == size && TernaryRow(rows[i])
    ensures DecodeRows(EncodeRows(rows, size) + extra, size, RowWidth(size)) == Some(rows)
  {
    var chunks := RowFields(rows, size);
    forall i | 0 <= i < |rows|
      ensures |chunks[i]| == RowWidth(size) && Digits(FromBytes(chunks[i]), size) == rows[i]
    {
      RowFits(rows[i], size);
      DigitsOfRow(rows[i]);
    }
    ReadConcat(chunks, RowWidth(size), extra);
    assert ReadChunks(EncodeRows(rows, size) + extra, RowWidth(size), size) == Some(chunks);
    assert DigitRows(chunks, size) == rows;
  }

  /** Saving and loading gives back the size, level, barrier count and
      board of any non-empty snapshot the format can hold. */
  lemma LoadSave(s: Snapshot, draw: Pos)
    requires Square(s.board, s.size) && Ternary(s.board) && Encodable(s) && s.size >= 1
    ensures var r := Load(Save(s).value, draw);
            r.Some? && r.value.game.size == s.size && r.value.game.level == s.level &&
            r.value.barriers == s.barriers && r.value.game.board == s.board
  {
    TernaryRows(s.board);
    var data := Save(s).value;
    var h, body := Header(s), EncodeRows(s.board, s.size);
    assert data == h + body;
    assert data[..2] == h[..2] && data[2] == h[2] && data[3] == h[3];
    assert data[4..] == body + [];
    DecodeEncode(s.board, s.size, []);
    var seed := (draw.0 % s.size, draw.1 % s.size);
    assert NewGame(s.size, [seed]).Some?;
  }

  // ---------------------------------------------------------------------
  // The virus list after loading

  /** The loader keeps the constructor's single seeded cell as the virus
      list instead of listing the loaded board's virus cells: any saved
      board with two virus cells (a 2×2 board [[1, 1], [0, 0]], say) reloads,
      whatever the seed draw, as a game whose one-entry list misses one of
      them. */
  lemma LoadLosesVirus(s: Snapshot, draw: Pos, p: Pos, q: Pos)
    requires Square(s.board, s.size) && Ternary(s.board) && Encodable(s) && s.size >= 1
    requires p != q && InBounds(p, s.size) && InBounds(q, s.size)
    requires Cell(s.board, p) == VIRUS && Cell(s.board, q) == VIRUS
    ensures var r := Load(Save(s).value, draw);
            r.Some? && |r.value.game.virus| == 1 && !Valid(r.value.game)
  {
    LoadSave(s, draw);
    var g := Load(Save(s).value, draw).value.game;
    OneEntryMisses(g.board, g.size, g.virus, p, q);
  }

  /** A one-entry list cannot mirror a board with two virus cells. */
  lemma OneEntryMisses(b: Grid, n: int, virus: seq<Pos>, p: Pos, q: Pos)
    requires Square(b, n) && |virus| == 1
    requires p != q && InBounds(p, n) && InBounds(q, n)
    requires Cell(b, p) == VIRUS && Cell(b, q) == VIRUS
    ensures !Mirrors(b, n, virus)
  {
    assert virus == [virus[0]];
  }

  /** load_game with the virus list rebuilt from the board, row by row, the
      way the `FileHandler` loader builds it. */
  function LoadRebuilt(data: seq<byte>, draw: Pos): (r: Option<Loaded>)
    ensures r.Some? <==> Load(data, draw).Some?
    ensures r.Some? ==> Valid(r.value.game)
    ensures r.Some? ==> var g := r.value.game; var g0 := Load(data, draw).value.game;
              g.size == g0.size && g.level == g0.level && g.board == g0.board &&
              r.value.barriers == Load(data, draw).value.barriers
  {
    match Load(data, draw)
    case None => None
    case Some(l) =>
      var g := l.game;
      OnesMirror(g.board, g.size);
      Some(Loaded(g.(virus := OnesFrom(g.board, 0)), l.barriers))
  }

  /** Two source lists with the same cells make the same cells reachable. */
  lemma SameSources(b: Grid, n: int, s1: seq<Pos>, s2: seq<Pos>)
    requires Square(b, n) && Elems(s1) == Elems(s2)
    ensures NoIslands(b, n, s1) <==> NoIslands(b, n, s2)
  {
    forall path | IsPath(b, n, s1, path) ensures IsPath(b, n, s2, path) {
      assert path[0] in Elems(s1);
    }
    forall path | IsPath(b, n, s2, path) ensures IsPath(b, n, s1, path) {
      assert path[0] in Elems(s2);
    }
  }

  /** Saving a playable game and loading it with the rebuilt list gives a
      playable game with the same board and the same virus cells. */
  lemma RebuiltKeepsPlay(g: Game, barriers: int, draw: Pos)
    requires Playable(g) && g.size >= 1
    requires Encodable(Snapshot(g.size, g.level, barriers, g.board))
    ensures var r := LoadRebuilt(Save(Snapshot(g.size, g.level, barriers, g.board)).value, draw);
            r.Some? && r.value.game.board == g.board && r.value.game.level == g.level &&
            Elems(r.value.game.virus) == Elems(g.virus) && Playable(r.value.game)
  {
    var s := Snapshot(g.size, g.level, barriers, g.board);
    LoadSave(s, draw);
    var r := LoadRebuilt(Save(s).value, draw);
    var v := r.value.game.virus;
    MirrorsSameElems(g.board, g.size, v, g.virus);
    SameSources(g.board, g.size, v, g.virus);
  }

  /** Two lists that mirror the same board list the same cells. */
  lemma MirrorsSameElems(b: Grid, n: int, v: seq<Pos>, w: seq<Pos>)
    requires Square(b, n) && Mirrors(b, n, v) && Mirrors(b, n, w)
    ensures Elems(v) == Elems(w)
  {
    forall p ensures p in Elems(v) <==> p in Elems(w) {
      if p in v {
        var k :| 0 <= k < |v| && v[k] == p;
      }
      if p in w {
        var k :| 0 <= k < |w| && w[k] == p;
      }
    }
  }
}

=== FILE: game_logic.dfy ===
/** The board engine of game_logic.py: seeding, barrier placement guarded
    by the island validator, the simultaneous spread tick, the status check
    and level progression. Randomness is a parameter: seeding consumes a
    stream of random draws, and the spread tick takes one shuffled
    direction list per source. */
module GameLogic {
  import opened Wrappers
  import opened Board
  import opened Validation

  datatype Winner = Undecided | PlayerWins | VirusWins

  /** The fields of a GameLogic object (the validator is stateless). */
  datatype Game = Game(size: int, level: int, board: Grid, virus: seq<Pos>,
                       turn: int, gameOver: bool, winner: Winner)

  /** The board is size×size and every listed virus cell is on it. */
  predicate Shaped(g: Game) {
    Square(g.board, g.size) &&
    forall k :: 0 <= k < |g.virus| ==> InBounds(g.virus[k], g.size)
  }

  /** The engine's data invariant: cells are 0/1/2 and `virus` lists the
      1-cells exactly, each once. */
  ghost predicate Valid(g: Game) {
    Shaped(g) && Ternary(g.board) && Mirrors(g.board, g.size, g.virus)
  }

  /** Valid, and the island rule holds. */
  ghost predicate Playable(g: Game) {
    Valid(g) && NoIslands(g.board, g.size, g.virus)
  }

  /** The number of iterations of `range(level)`. */
  function Rounds(level: int): nat {
    if level > 0 then level else 0
  }

  // ---------------------------------------------------------------------
  // Seeding

  /** initialize_infection_points: the rejection-sampling loop over a
      stream of random draws. A draw on a free cell infects it; any other
      draw is discarded. None when the draws run out before `k` cells are
      infected (the source would still be drawing). */
  function Seed(b: Grid, n: int, k: nat, draws: seq<Pos>): (r: Option<(Grid, seq<Pos>)>)
    requires Square(b, n)
    requires forall m :: 0 <= m < |draws| ==> InBounds(draws[m], n)
    ensures r.Some? ==> Square(r.value.0, n) && |r.value.1| == k && Distinct(r.value.1)
    ensures r.Some? ==> forall m :: 0 <= m < k ==>
              InBounds(r.value.1[m], n) && Cell(b, r.value.1[m]) == FREE
    ensures r.Some? ==> forall p: Pos :: InBounds(p, n) ==>
              Cell(r.value.0, p) == if p in r.value.1 then VIRUS else Cell(b, p)
    ensures r.Some? ==> forall m :: 0 <= m < k ==> r.value.1[m] in draws
    ensures r.Some? ==> InOrder(r.value.1, draws)
    decreases |draws|
  {
    if k == 0 then Some((b, []))
    else if |draws| == 0 then None
    else
      var p := draws[0];
      assert InBounds(p, n);
      if Cell(b, p) == FREE then
        match Seed(SetCell(b, p, VIRUS), n, k - 1, draws[1..])
        case None => None
        case Some((b', picks)) => Some((b', [p] + picks))
      else
        Seed(b, n, k, draws[1..])
  }

  /** `picks` is a subsequence of `draws`: its entries occur there in the
      same order. */
  predicate InOrder(picks: seq<Pos>, draws: seq<Pos>)
    decreases |draws|
  {
    picks == [] ||
    (draws != [] &&
     if picks[0] == draws[0] then InOrder(picks[1..], draws[1..]) else InOrder(picks, draws[1..]))
  }

  /** Seeding more cells than the board has can never finish, whatever the
      draws: the loop of game_logic.py:53-58 then runs forever. */
  lemma SeedStalls(b: Grid, n: nat, k: nat, draws: seq<Pos>)
    requires Square(b, n)
    requires forall m :: 0 <= m < |draws| ==> InBounds(draws[m], n)
    ensures k > n * n ==> Seed(b, n, k, draws).None?
  {
    var r := Seed(b, n, k, draws);
    if k > n * n && r.Some? {
      DistinctCellsBound(r.value.1, n);
    }
  }

  /** Draws that hit distinct free cells, at least `k` of them, finish
      seeding. */
  lemma {:induction false} SeedCompletes(b: Grid, n: int, k: nat, draws: seq<Pos>)
    requires Square(b, n)
    requires forall m :: 0 <= m < |draws| ==> InBounds(draws[m], n) && Cell(b, draws[m]) == FREE
    requires Distinct(draws) && |draws| >= k
    ensures Seed(b, n, k, draws).Some?
    decreases k
  {
    if k > 0 {
      var b' := SetCell(b, draws[0], VIRUS);
      var rest := draws[1..];
      forall m | 0 <= m < |rest| ensures Cell(b', rest[m]) == FREE {
        assert rest[m] == draws[m + 1];
      }
      assert Distinct(rest);
      SeedCompletes(b', n, k - 1, rest);
    }
  }

  /** Every cell in row-major order, rows from `i` on. */
  function RowMajor(n: nat, i: nat): (r: seq<Pos>)
    requires i <= n
    ensures |r| == (n - i) * n
    ensures forall m :: 0 <= m < |r| ==> i <= r[m].0 < n && 0 <= r[m].1 < n
    ensures forall m, l :: 0 <= m < l < |r| ==> Before(r[m], r[l])
    decreases n - i
  {
    if i == n then []
    else
      var row := seq(n, j => (i, j));
      var rest := RowMajor(n, i + 1);
      assert (n - i) * n == n + (n - (i + 1)) * n;
      row + rest
  }

  /** Seeding a fresh n×n board can finish, for some draws, exactly when
      the level is at most n²: the row-major enumeration of the cells is
      one such stream, and SeedStalls covers the other direction. */
  lemma SeedPossible(n: nat, k: nat)
    requires k <= n * n
    ensures Seed(Zeros(n), n, k, RowMajor(n, 0)).Some?
  {
    var draws := RowMajor(n, 0);
    forall m, l | 0 <= m < l < |draws| ensures draws[m] != draws[l] {
      assert Before(draws[m], draws[l]);
    }
    SeedCompletes(Zeros(n), n, k, draws);
  }

  /** A seeded fresh board: only the seeded cells are infected, and they
      are listed exactly; from any of them every other cell is reachable. */
  lemma FreshBoardPlayable(n: int, picks: seq<Pos>, b: Grid)
    requires n >= 0 && Square(b, n) && |picks| >= 1 && Distinct(picks)
    requires forall m :: 0 <= m < |picks| ==> InBounds(picks[m], n)
    requires forall p: Pos :: InBounds(p, n) ==> Cell(b, p) == if p in picks then VIRUS else FREE
    ensures Ternary(b) && Mirrors(b, n, picks) && NoIslands(b, n, picks)
  {
    forall i, j | 0 <= i < |b| && 0 <= j < |b[i]| ensures 0 <= b[i][j] <= 2 {
      assert Cell(b, (i, j)) == b[i][j];
    }
    forall c: Pos | FreeAt(b, n, c) ensures Reachable(b, n, picks, c) {
      OpenBoardReach(b, n, picks, picks[0], c);
    }
  }

  /** reset_board: an all-free board, no virus, turn 0, not over, seeded
      with `level` cells. */
  function ResetBoard(g: Game, draws: seq<Pos>): (r: Option<Game>)
    requires g.size >= 1
    requires forall m :: 0 <= m < |draws| ==> InBounds(draws[m], g.size)
    ensures r.Some? ==> r.value.size == g.size && r.value.level == g.level
    ensures r.Some? ==> r.value.turn == 0 && !r.value.gameOver && r.value.winner == Undecided
    ensures r.Some? ==> Valid(r.value) && |r.value.virus| == Rounds(g.level)
    ensures r.Some? ==> forall p: Pos :: InBounds(p, g.size) && p !in r.value.virus ==>
              Cell(r.value.board, p) == FREE
    ensures r.Some? && g.level >= 1 ==> Playable(r.value)
    ensures Rounds(g.level) > g.size * g.size ==> r.None?
  {
    SeedStalls(Zeros(g.size), g.size, Rounds(g.level), draws);
    match Seed(Zeros(g.size), g.size, Rounds(g.level), draws)
    case None => None
    case Some((b, picks)) =>
      var r := Game(g.size, g.level, b, picks, 0, false, Undecided);
      if Rounds(g.level) >= 1 then
        FreshBoardPlayable(g.size, picks, b);
        Some(r)
      else
        Some(r)
  }

  /** GameLogic(size): level 1, then the constructor seeds one cell.
      `randint(0, size - 1)` raises for a size below 1. */
  function NewGame(size: int, draws: seq<Pos>): (r: Option<Game>)
    requires forall m :: 0 <= m < |draws| ==> InBounds(draws[m], size)
    ensures size < 1 ==> r.None?
    ensures size >= 1 && |draws| >= 1 ==> r.Some?
    ensures r.Some? ==> r.value.size == size && r.value.level == 1 && |r.value.virus| == 1
    ensures r.Some? ==> r.value.turn == 0 && !r.value.gameOver && r.value.winner == Undecided
    ensures r.Some? ==> Playable(r.value)
  {
    if size < 1 then None
    else
      var g := Game(size, 1, Zeros(size), [], 0, false, Undecided);
      if |draws| >= 1 then
        assert Cell(Zeros(size), draws[0]) == FREE;
        assert Seed(Zeros(size), size, 1, draws).Some?;
        ResetBoard(g, draws)
      else
        ResetBoard(g, draws)
  }

  // ---------------------------------------------------------------------
  // Barrier placement

  /** place_barrier: refused when the game is over or the cell is not free;
      otherwise the barrier is kept iff the validator accepts the board
      with it. */
  function PlaceBarrier(g: Game, x: int, y: int): (r: (Game, bool))
    requires Shaped(g) && InBounds((x, y), g.size)
    ensures r.1 <==> !g.gameOver && Cell(g.board, (x, y)) == FREE &&
                     NoIslands(SetCell(g.board, (x, y), BARRIER), g.size, g.virus)
    ensures !r.1 ==> r.0 == g
    ensures r.1 ==> r.0 == g.(board := SetCell(g.board, (x, y), BARRIER))
    ensures r.1 ==> NoIslands(r.0.board, r.0.size, r.0.virus)
    ensures Shaped(r.0)
    ensures Valid(g) ==> Valid(r.0)
    ensures Playable(g) ==> Playable(r.0)
  {
    if g.gameOver || Cell(g.board, (x, y)) != FREE then (g, false)
    else
      var temp := SetCell(g.board, (x, y), BARRIER);
      if ValidateNoIslands(temp, g.size, g.virus) then
        var g' := g.(board := temp);
        assert Valid(g) ==> Valid(g') by {
          if Valid(g) {
            forall i, j | 0 <= i < |temp| && 0 <= j < |temp[i]| ensures 0 <= temp[i][j] <= 2 {
              assert Cell(temp, (i, j)) == temp[i][j];
            }
          }
        }
        (g', true)
      else (g, false)
  }

  // ---------------------------------------------------------------------
  // Spreading

  /** One source's turn in spread_virus: the first direction of its
      shuffled list that leads to an in-bounds free cell, if any. */
  function TryInfect(b: Grid, n: int, src: Pos, dirs: seq<Dir>): (r: Option<Pos>)
    requires Square(b, n)
    requires forall m :: 0 <= m < |dirs| ==> dirs[m] in Directions
    ensures r.Some? ==> FreeAt(b, n, r.value) && Adjacent(src, r.value)
    ensures r.None? <==> forall m :: 0 <= m < |dirs| ==> !FreeAt(b, n, Neighbour(src, dirs[m]))
  {
    if dirs == [] then None
    else
      var q := Neighbour(src, dirs[0]);
      if InBounds(q, n) && Cell(b, q) == FREE then Some(q)
      else TryInfect(b, n, src, dirs[1..])
  }

  /** The values present in a list of outcomes, in order. */
  function Somes(outs: seq<Option<Pos>>): (r: seq<Pos>)
    ensures |r| <= |outs|
    ensures forall p :: p in r <==> Some(p) in outs
  {
    if outs == [] then []
    else if outs[0].Some? then [outs[0].value] + Somes(outs[1..])
    else Somes(outs[1..])
  }

  /** The `for x, y in self.virus_positions` loop: each source, in list
      order, takes its turn on the board as left by the sources before it.
      `outs[k]` is what source `k` infected; exactly those cells turn to 1. */
  function SpreadPass(b: Grid, n: int, sources: seq<Pos>, orders: seq<seq<Dir>>)
    : (r: (Grid, seq<Option<Pos>>))
    requires Square(b, n)
    requires |orders| == |sources| && forall k :: 0 <= k < |orders| ==> IsShuffle(orders[k])
    ensures Square(r.0, n) && |r.1| == |sources|
    ensures forall p: Pos :: InBounds(p, n) ==>
              Cell(r.0, p) == if p in Somes(r.1) then VIRUS else Cell(b, p)
    decreases |sources|
  {
    if sources == [] then (b, [])
    else
      ShuffleNeighbours(b, n, sources[0], orders[0]);
      match TryInfect(b, n, sources[0], orders[0])
      case None =>
        var (b', outs) := SpreadPass(b, n, sources[1..], orders[1..]);
        assert Somes([None] + outs) == Somes(outs);
        (b', [None] + outs)
      case Some(c) =>
        var (b', outs) := SpreadPass(SetCell(b, c, VIRUS), n, sources[1..], orders[1..]);
        assert Somes([Some(c)] + outs) == [c] + Somes(outs);
        (b', [Some(c)] + outs)
  }

  /** What one source takes in the loop, given the board it finds. */
  function Turn(b: Grid, n: int, src: Pos, dirs: seq<Dir>): (r: (Option<Pos>, Grid))
    requires Square(b, n) && IsShuffle(dirs)
    ensures Square(r.1, n)
  {
    ShuffleNeighbours(b, n, src, dirs);
    var o := TryInfect(b, n, src, dirs);
    (o, if o.Some? then SetCell(b, o.value, VIRUS) else b)
  }

  /** The first step of the loop, through Turn. */
  lemma PassStep(b: Grid, n: int, sources: seq<Pos>, orders: seq<seq<Dir>>)
    requires Square(b, n) && sources != []
    requires |orders| == |sources| && forall k :: 0 <= k < |orders| ==> IsShuffle(orders[k])
    ensures var t := Turn(b, n, sources[0], orders[0]);
            SpreadPass(b, n, sources, orders).1 == [t.0] + SpreadPass(t.1, n, sources[1..], orders[1..]).1
  {
  }

  /** Every outcome of the loop is a cell adjacent to its source that was
      free before the tick; no cell is taken twice. */
  lemma SpreadOutcomes(b: Grid, n: int, sources: seq<Pos>, orders: seq<seq<Dir>>)
    requires Square(b, n)
    requires |orders| == |sources| && forall k :: 0 <= k < |orders| ==> IsShuffle(orders[k])
    ensures var outs := SpreadPass(b, n, sources, orders).1;
            (forall k :: 0 <= k < |sources| && outs[k].Some? ==>
               Adjacent(sources[k], outs[k].value) && FreeAt(b, n, outs[k].value)) &&
            Distinct(Somes(outs)) && (forall p :: p in Somes(outs) ==> FreeAt(b, n, p))
  {
    SpreadAdjacent(b, n, sources, orders);
    SpreadFresh(b, n, sources, orders);
  }

  /** Source `k`'s outcome, if any, is a neighbour of it that was free
      before the tick. */
  lemma {:induction false} SpreadAdjacent(b: Grid, n: int, sources: seq<Pos>, orders: seq<seq<Dir>>)
    requires Square(b, n)
    requires |orders| == |sources| && forall k :: 0 <= k < |orders| ==> IsShuffle(orders[k])
    ensures var outs := SpreadPass(b, n, sources, orders).1;
            forall k :: 0 <= k < |sources| && outs[k].Some? ==>
              Adjacent(sources[k], outs[k].value) && FreeAt(b, n, outs[k].value)
    decreases |sources|
  {
    if sources != [] {
      var t := Turn(b, n, sources[0], orders[0]);
      var o, b1 := t.0, t.1;
      TurnAdjacent(b, n, sources[0], orders[0]);
      PassStep(b, n, sources, orders);
      SpreadAdjacent(b1, n, sources[1..], orders[1..]);
      var outs := SpreadPass(b1, n, sources[1..], orders[1..]).1;
      PrependOutcome(b, b1, n, sources, o, outs);
    }
  }

  /** One turn takes, if anything, a free neighbour of its source, and
      leaves no cell free that was not free before. */
  lemma TurnAdjacent(b: Grid, n: int, src: Pos, dirs: seq<Dir>)
    requires Square(b, n) && IsShuffle(dirs)
    ensures var t := Turn(b, n, src, dirs);
            (t.0.Some? ==> Adjacent(src, t.0.value) && FreeAt(b, n, t.0.value)) &&
            forall p: Pos :: FreeAt(t.1, n, p) ==> FreeAt(b, n, p)
  {
    ShuffleNeighbours(b, n, src, dirs);
  }

  /** The cells the loop infects are distinct and were all free before the
      tick. */
  lemma {:induction false} SpreadFresh(b: Grid, n: int, sources: seq<Pos>, orders: seq<seq<Dir>>)
    requires Square(b, n)
    requires |orders| == |sources| && forall k :: 0 <= k < |orders| ==> IsShuffle(orders[k])
    ensures var outs := SpreadPass(b, n, sources, orders).1;
            Distinct(Somes(outs)) && forall p :: p in Somes(outs) ==> FreeAt(b, n, p)
    decreases |sources|
  {
    if sources != [] {
      var t := Turn(b, n, sources[0], orders[0]);
      var o, b1 := t.0, t.1;
      ShuffleNeighbours(b, n, sources[0], orders[0]);
      PassStep(b, n, sources, orders);
      SpreadFresh(b1, n, sources[1..], orders[1..]);
      FreshStep(b, n, o, SpreadPass(b1, n, sources[1..], orders[1..]).1);
    }
  }

  /** Prepending the first source's outcome keeps the infected cells
      distinct and free before the tick. */
  lemma FreshStep(b: Grid, n: int, o: Option<Pos>, outs: seq<Option<Pos>>)
    requires Square(b, n) && (o.Some? ==> FreeAt(b, n, o.value))
    requires Distinct(Somes(outs))
    requires var b1 := if o.Some? then SetCell(b, o.value, VIRUS) else b;
             forall p :: p in Somes(outs) ==> FreeAt(b1, n, p)
    ensures Distinct(Somes([o] + outs)) && forall p :: p in Somes([o] + outs) ==> FreeAt(b, n, p)
  {
    if o.Some? {
      assert Somes([o] + outs) == [o.value] + Somes(outs);
      InfectedMoreFree(b, n, o.value, outs);
    } else {
      assert Somes([o] + outs) == Somes(outs);
    }
  }

  /** The tick infects nothing exactly when no source has a free
      neighbour at the start: the first source that has one finds the board
      unchanged by the sources before it, and its shuffle tries every
      direction. */
  lemma {:induction false} SpreadProgress(b: Grid, n: int, sources: seq<Pos>, orders: seq<seq<Dir>>)
    requires Square(b, n)
    requires |orders| == |sources| && forall k :: 0 <= k < |orders| ==> IsShuffle(orders[k])
    ensures Somes(SpreadPass(b, n, sources, orders).1) == [] <==>
            forall k :: 0 <= k < |sources| ==> !HasFreeNeighbour(b, n, sources[k])
    decreases |sources|
  {
    if sources != [] {
      var t := Turn(b, n, sources[0], orders[0]);
      var o, b1 := t.0, t.1;
      ShuffleNeighbours(b, n, sources[0], orders[0]);
      PassStep(b, n, sources, orders);
      var outs := SpreadPass(b1, n, sources[1..], orders[1..]).1;
      if o.Some? {
        assert Somes([o] + outs) == [o.value] + Somes(outs);
        assert HasFreeNeighbour(b, n, sources[0]);
      } else {
        SpreadProgress(b, n, sources[1..], orders[1..]);
        assert Somes([o] + outs) == Somes(outs);
        assert !HasFreeNeighbour(b, n, sources[0]);
        forall k | 1 <= k < |sources| ensures sources[k] == sources[1..][k - 1] { }
      }
    }
  }

  /** The first source's outcome followed by the rest's. */
  lemma PrependOutcome(b: Grid, b1: Grid, n: int, sources: seq<Pos>, o: Option<Pos>,
                       outs: seq<Option<Pos>>)
    requires Square(b, n) && Square(b1, n) && |sources| == |outs| + 1
    requires o.Some? ==> Adjacent(sources[0], o.value) && FreeAt(b, n, o.value)
    requires forall p: Pos :: FreeAt(b1, n, p) ==> FreeAt(b, n, p)
    requires forall k :: 0 <= k < |outs| && outs[k].Some? ==>
               Adjacent(sources[1..][k], outs[k].value) && FreeAt(b1, n, outs[k].value)
    ensures forall k :: 0 <= k < |sources| && ([o] + outs)[k].Some? ==>
              Adjacent(sources[k], ([o] + outs)[k].value) && FreeAt(b, n, ([o] + outs)[k].value)
  {
    forall k | 1 <= k < |sources| && ([o] + outs)[k].Some?
      ensures Adjacent(sources[k], ([o] + outs)[k].value) && FreeAt(b, n, ([o] + outs)[k].value)
    {
      assert ([o] + outs)[k] == outs[k - 1] && sources[k] == sources[1..][k - 1];
    }
  }

  /** Later sources only infect cells that were free before the earlier
      infection, so the earlier one is not infected twice. */
  lemma InfectedMoreFree(b: Grid, n: int, c: Pos, outs: seq<Option<Pos>>)
    requires Square(b, n) && FreeAt(b, n, c)
    requires forall p :: p in Somes(outs) ==> FreeAt(SetCell(b, c, VIRUS), n, p)
    ensures c !in Somes(outs)
    ensures forall p :: p in Somes(outs) ==> FreeAt(b, n, p)
  {
  }

  /** Trying every direction of a shuffle finds a free neighbour iff one
      exists. */
  lemma ShuffleNeighbours(b: Grid, n: int, src: Pos, dirs: seq<Dir>)
    requires Square(b, n) && IsShuffle(dirs)
    ensures forall m :: 0 <= m < |dirs| ==> dirs[m] in Directions
    ensures HasFreeNeighbour(b, n, src) <==>
            exists m :: 0 <= m < |dirs| && FreeAt(b, n, Neighbour(src, dirs[m]))
  {
    forall m | 0 <= m < |dirs| ensures dirs[m] in Directions {
      assert dirs[m] in multiset(dirs);
    }
    if HasFreeNeighbour(b, n, src) {
      var d: Dir :| d in Directions && FreeAt(b, n, Neighbour(src, d));
      assert d in multiset(dirs);
      var m :| 0 <= m < |dirs| && dirs[m] == d;
    }
  }

  /** Some listed virus cell has an in-bounds free neighbour. */
  predicate CanSpread(b: Grid, n: int, virus: seq<Pos>)
    requires Square(b, n)
  {
    exists k :: 0 <= k < |virus| && HasFreeNeighbour(b, n, virus[k])
  }

  /** The `can_spread` search of check_game_status: over the listed cells
      in order and the four directions in order, stopping at the first
      in-bounds free neighbour. It finds one iff some listed cell can
      spread. */
  method CanSpreadLoop(b: Grid, n: int, virus: seq<Pos>) returns (found: bool)
    requires Square(b, n)
    ensures found <==> CanSpread(b, n, virus)
  {
    found := false;
    var k := 0;
    while k < |virus| && !found
      invariant 0 <= k <= |virus|
      invariant found ==> CanSpread(b, n, virus)
      invariant !found ==> forall m :: 0 <= m < k ==> !HasFreeNeighbour(b, n, virus[m])
    {
      var (x, y) := virus[k];
      var i := 0;
      while i < |Directions| && !found
        invariant 0 <= i <= |Directions|
        invariant found ==> HasFreeNeighbour(b, n, virus[k])
        invariant !found ==> forall j :: 0 <= j < i ==> !FreeAt(b, n, Neighbour(virus[k], Directions[j]))
      {
        var (dx, dy) := Directions[i];
        var nx, ny := x + dx, y + dy;
        if 0 <= nx < n && 0 <= ny < n && b[nx][ny] == FREE {
          assert FreeAt(b, n, Neighbour(virus[k], Directions[i]));
          found := true;
        }
        i := i + 1;
      }
      k := k + 1;
    }
  }

  /** spread_virus: a no-op once the game is over; otherwise one
      simultaneous tick followed by the status check. */
  function SpreadVirus(g: Game, orders: seq<seq<Dir>>): (r: Game)
    requires Shaped(g)
    requires |orders| == |g.virus| && forall k :: 0 <= k < |orders| ==> IsShuffle(orders[k])
    ensures g.gameOver ==> r == g
    ensures r.size == g.size && Shaped(r)
    ensures |g.virus| <= |r.virus|
    ensures !g.gameOver ==> r.level == g.level && r.turn == g.turn + 1
    ensures !g.gameOver ==> r.virus[..|g.virus|] == g.virus && |r.virus| <= 2 * |g.virus|
    ensures !g.gameOver ==> (|r.virus| > |g.virus| <==> CanSpread(g.board, g.size, g.virus))
    ensures forall p: Pos :: InBounds(p, g.size) ==>
              Cell(r.board, p) == Cell(g.board, p) ||
              (Cell(g.board, p) == FREE && Cell(r.board, p) == VIRUS && p in r.virus)
    ensures Valid(g) ==> Valid(r)
    ensures !g.gameOver ==> (r.gameOver <==> !CanSpread(r.board, r.size, r.virus))
    ensures !g.gameOver && r.gameOver ==> r.winner == PlayerWins
    ensures !g.gameOver && !r.gameOver ==> r.winner == g.winner
  {
    if g.gameOver then g
    else
      TickKeepsValid(g, orders);
      TickGrowth(g, orders);
      TickCells(g, orders);
      CheckGameStatus(Tick(g, orders))
  }

  /** The loop of spread_virus and the bookkeeping after it: cells infected
      in this tick are appended to the list only after the loop, so they do
      not spread in the same tick; the turn counter goes up by one. */
  function Tick(g: Game, orders: seq<seq<Dir>>): (r: Game)
    requires Shaped(g)
    requires |orders| == |g.virus| && forall k :: 0 <= k < |orders| ==> IsShuffle(orders[k])
    ensures r.size == g.size && r.level == g.level && r.turn == g.turn + 1
    ensures r.gameOver == g.gameOver && r.winner == g.winner && Shaped(r)
    ensures |g.virus| <= |r.virus| <= 2 * |g.virus| && r.virus[..|g.virus|] == g.virus
  {
    var (b', outs) := SpreadPass(g.board, g.size, g.virus, orders);
    SpreadOutcomes(g.board, g.size, g.virus, orders);
    var born := Somes(outs);
    var r := g.(board := b', virus := g.virus + born, turn := g.turn + 1);
    assert r.virus[..|g.virus|] == g.virus;
    assert forall k :: |g.virus| <= k < |r.virus| ==> r.virus[k] in born;
    r
  }

  /** The list grows in a tick exactly when some listed cell could spread. */
  lemma TickGrowth(g: Game, orders: seq<seq<Dir>>)
    requires Shaped(g)
    requires |orders| == |g.virus| && forall k :: 0 <= k < |orders| ==> IsShuffle(orders[k])
    ensures |Tick(g, orders).virus| > |g.virus| <==> CanSpread(g.board, g.size, g.virus)
  {
    SpreadProgress(g.board, g.size, g.virus, orders);
  }

  /** A tick only turns free cells into listed virus cells. */
  lemma TickCells(g: Game, orders: seq<seq<Dir>>)
    requires Shaped(g)
    requires |orders| == |g.virus| && forall k :: 0 <= k < |orders| ==> IsShuffle(orders[k])
    ensures var r := Tick(g, orders);
            forall p: Pos :: InBounds(p, g.size) ==>
              Cell(r.board, p) == Cell(g.board, p) ||
              (Cell(g.board, p) == FREE && Cell(r.board, p) == VIRUS && p in r.virus)
  {
    var outs := SpreadPass(g.board, g.size, g.virus, orders).1;
    SpreadOutcomes(g.board, g.size, g.virus, orders);
    assert forall p :: p in Somes(outs) ==> p in g.virus + Somes(outs);
  }

  /** A tick keeps the list mirroring the board. */
  lemma TickKeepsValid(g: Game, orders: seq<seq<Dir>>)
    requires Shaped(g)
    requires |orders| == |g.virus| && forall k :: 0 <= k < |orders| ==> IsShuffle(orders[k])
    ensures Valid(g) ==> Valid(Tick(g, orders))
  {
    if Valid(g) {
      var (b', outs) := SpreadPass(g.board, g.size, g.virus, orders);
      SpreadOutcomes(g.board, g.size, g.virus, orders);
      SpreadKeepsMirror(g, b', Somes(outs));
    }
  }

  lemma SpreadKeepsMirror(g: Game, b': Grid, born: seq<Pos>)
    requires Valid(g) && Square(b', g.size) && Distinct(born)
    requires forall p :: p in born ==> FreeAt(g.board, g.size, p)
    requires forall p: Pos :: InBounds(p, g.size) ==>
               Cell(b', p) == if p in born then VIRUS else Cell(g.board, p)
    ensures Ternary(b') && Mirrors(b', g.size, g.virus + born)
  {
    var v := g.virus + born;
    forall i, j | 0 <= i < |b'| && 0 <= j < |b'[i]| ensures 0 <= b'[i][j] <= 2 {
      assert Cell(b', (i, j)) == b'[i][j];
      assert Cell(g.board, (i, j)) == g.board[i][j];
    }
    forall k, l | 0 <= k < l < |v| ensures v[k] != v[l] {
      if k < |g.virus| && l >= |g.virus| {
        assert v[l] in born;
      }
    }
    forall k | 0 <= k < |v| ensures InBounds(v[k], g.size) && Cell(b', v[k]) == VIRUS {
      if k >= |g.virus| {
        assert v[k] in born;
      }
    }
  }

  /** check_game_status: the player wins when no listed virus cell has a
      free neighbour. The "virus" outcome needs a board with no free cell
      while some virus cell has a free neighbour, so it never happens: the
      status check leaves the game unchanged whenever the virus can spread. */
  function CheckGameStatus(g: Game): (r: Game)
    requires Shaped(g)
    ensures !CanSpread(g.board, g.size, g.virus) ==> r == g.(gameOver := true, winner := PlayerWins)
    ensures CanSpread(g.board, g.size, g.virus) ==> r == g
  {
    if !CanSpread(g.board, g.size, g.virus) then g.(gameOver := true, winner := PlayerWins)
    else
      SpreadImpliesFree(g.board, g.size, g.virus);
      if FreeCount(g.board) == 0 then g.(gameOver := true, winner := VirusWins)
      else g
  }

  /** A virus cell with a free neighbour means a free cell exists. */
  lemma SpreadImpliesFree(b: Grid, n: int, virus: seq<Pos>)
    requires Square(b, n) && CanSpread(b, n, virus)
    ensures FreeCount(b) > 0
  {
    var k :| 0 <= k < |virus| && HasFreeNeighbour(b, n, virus[k]);
    var d: Dir :| d in Directions && FreeAt(b, n, Neighbour(virus[k], d));
    var q := Neighbour(virus[k], d);
    FreeCountZero(b);
    assert b[q.0][q.1] == FREE;
  }

  // ---------------------------------------------------------------------
  // Levels

  datatype Advance = Refused | Advanced(game: Game) | Stalled

  /** next_level: only after a player win; then the level goes up by one
      and the board is reset and reseeded. `Stalled` means the seeding loop
      has not finished with the given draws. */
  function NextLevel(g: Game, draws: seq<Pos>): (r: Advance)
    requires g.size >= 1
    requires forall m :: 0 <= m < |draws| ==> InBounds(draws[m], g.size)
    ensures r.Refused? <==> !(g.gameOver && g.winner == PlayerWins)
    ensures r.Advanced? ==> r.game.level == g.level + 1 && r.game.size == g.size
    ensures r.Advanced? ==> r.game.turn == 0 && !r.game.gameOver && r.game.winner == Undecided
    ensures r.Advanced? ==> Valid(r.game) && |r.game.virus| == Rounds(g.level + 1)
    ensures r.Advanced? ==> forall p: Pos :: InBounds(p, g.size) && p !in r.game.virus ==>
              Cell(r.game.board, p) == FREE
    ensures r.Advanced? && g.level >= 0 ==> Playable(r.game)
    ensures g.level + 1 > g.size * g.size ==> !r.Advanced?
  {
    if g.gameOver && g.winner == PlayerWins then
      match ResetBoard(g.(level := g.level + 1), draws)
      case None => Stalled
      case Some(g') => Advanced(g')
    else Refused
  }

  // ---------------------------------------------------------------------
  // Game-level properties

  /** The island rule survives a spread tick: a free cell was free before,
      so it had a path from a source; the part of that path after its last
      infected cell is still a path in the new board. */
  lemma SpreadKeepsIslandRule(g: Game, orders: seq<seq<Dir>>)
    requires Playable(g)
    requires |orders| == |g.virus| && forall k :: 0 <= k < |orders| ==> IsShuffle(orders[k])
    ensures Playable(SpreadVirus(g, orders))
  {
    var r := SpreadVirus(g, orders);
    PrefixMembers(g.virus, r.virus);
    GrowthKeepsIslandRule(g.board, r.board, g.size, g.virus, r.virus);
  }

  lemma PrefixMembers<T>(a: seq<T>, b: seq<T>)
    requires |a| <= |b| && b[..|a|] == a
    ensures forall p :: p in a ==> p in b
  {
    forall p | p in a ensures p in b {
      var k :| 0 <= k < |a| && a[k] == p;
      assert b[k] == b[..|a|][k];
    }
  }

  /** Turning free cells into listed sources keeps every free cell
      reachable. */
  lemma GrowthKeepsIslandRule(b: Grid, b': Grid, n: int, virus: seq<Pos>, virus': seq<Pos>)
    requires Square(b, n) && Square(b', n) && NoIslands(b, n, virus)
    requires forall p :: p in virus ==> p in virus'
    requires forall p: Pos :: InBounds(p, n) ==>
               Cell(b', p) == Cell(b, p) || (Cell(b, p) == FREE && p in virus')
    ensures NoIslands(b', n, virus')
  {
    forall c: Pos | FreeAt(b', n, c) ensures Reachable(b', n, virus', c) {
      assert FreeAt(b, n, c);
      var path :| IsPath(b, n, virus, path) && path[|path| - 1] == c;
      forall m | 1 <= m < |path|
        ensures Adjacent(path[m - 1], path[m]) && (FreeAt(b', n, path[m]) || path[m] in virus')
      {
        assert FreeAt(b, n, path[m]);
      }
      WalkReach(b', n, virus', path);
    }
  }

  /** Under the island rule a free cell remains exactly while some virus
      cell can spread: every free cell needs a free first step out of some
      virus cell. So the player is declared winner only on a board without
      free cells, and "virus wins" (no free cell, yet spreading possible)
      never happens. */
  lemma SpreadIffFree(g: Game)
    requires Playable(g)
    ensures CanSpread(g.board, g.size, g.virus) <==> FreeCount(g.board) > 0
  {
    if CanSpread(g.board, g.size, g.virus) {
      SpreadImpliesFree(g.board, g.size, g.virus);
    }
    if FreeCount(g.board) > 0 {
      FreeCountZero(g.board);
      var i, j :| 0 <= i < |g.board| && 0 <= j < |g.board[i]| && g.board[i][j] == FREE;
      FreeCellSpreads(g, (i, j));
    }
  }

  /** A free cell's path starts at a virus cell whose next step is free. */
  lemma FreeCellSpreads(g: Game, c: Pos)
    requires Playable(g) && FreeAt(g.board, g.size, c)
    ensures CanSpread(g.board, g.size, g.virus)
  {
    var path :| IsPath(g.board, g.size, g.virus, path) && path[|path| - 1] == c;
    var k :| 0 <= k < |g.virus| && g.virus[k] == path[0];
    assert Cell(g.board, path[0]) == VIRUS;
    assert |path| >= 2;
    var q := path[1];
    assert Adjacent(path[0], q) && FreeAt(g.board, g.size, q);
    var d: Dir :| d in Directions && q == Neighbour(path[0], d);
    assert HasFreeNeighbour(g.board, g.size, g.virus[k]);
  }

  /** A player action, with the randomness it consumes. */
  datatype Action = Place(x: int, y: int) | Spread(orders: seq<seq<Dir>>) | Next(draws: seq<Pos>)

  /** Apply an action the way the presentation layer does; an action whose
      randomness does not fit the current game is skipped. */
  function Step(g: Game, a: Action): (r: Game)
    requires Shaped(g) && g.size >= 1
    ensures Shaped(r) && r.size == g.size
  {
    match a
    case Place(x, y) =>
      if InBounds((x, y), g.size) then PlaceBarrier(g, x, y).0 else g
    case Spread(orders) =>
      if |orders| == |g.virus| && forall k :: 0 <= k < |orders| ==> IsShuffle(orders[k])
      then SpreadVirus(g, orders) else g
    case Next(draws) =>
      if forall m :: 0 <= m < |draws| ==> InBounds(draws[m], g.size) then
        match NextLevel(g, draws)
        case Advanced(g') => g'
        case _ => g
      else g
  }

  function Run(g: Game, actions: seq<Action>): (r: Game)
    requires Shaped(g) && g.size >= 1
    ensures Shaped(r) && r.size == g.size
    decreases |actions|
  {
    if actions == [] then g else Run(Step(g, actions[0]), actions[1..])
  }

  /** Over any sequence of placements, spread ticks and level advances
      from a playable game at level 1 or more: the game stays playable, the
      "virus" outcome never appears, and a finished game has a full board. */
  lemma {:induction false} PlayStaysPlayable(g: Game, actions: seq<Action>)
    requires Playable(g) && g.size >= 1 && g.level >= 1 && g.winner != VirusWins
    requires g.gameOver ==> FreeCount(g.board) == 0
    ensures var r := Run(g, actions);
      Playable(r) && r.level >= 1 && r.winner != VirusWins && (r.gameOver ==> FreeCount(r.board) == 0)
    decreases |actions|
  {
    if actions != [] {
      StepStaysPlayable(g, actions[0]);
      PlayStaysPlayable(Step(g, actions[0]), actions[1..]);
    }
  }

  /** One action keeps the game playable, short of a virus win, and full
      when finished. */
  lemma StepStaysPlayable(g: Game, a: Action)
    requires Playable(g) && g.size >= 1 && g.level >= 1 && g.winner != VirusWins
    requires g.gameOver ==> FreeCount(g.board) == 0
    ensures var r := Step(g, a);
      Playable(r) && r.level >= 1 && r.winner != VirusWins && (r.gameOver ==> FreeCount(r.board) == 0)
  {
    match a {
      case Place(x, y) => PlaceStaysPlayable(g, x, y);
      case Spread(orders) => SpreadStaysPlayable(g, orders);
      case Next(draws) => NextStaysPlayable(g, draws);
    }
  }

  /** Placing a barrier, accepted or refused, keeps the game playable. */
  lemma PlaceStaysPlayable(g: Game, x: int, y: int)
    requires Playable(g) && g.size >= 1 && g.level >= 1 && g.winner != VirusWins
    requires g.gameOver ==> FreeCount(g.board) == 0
    ensures var r := Step(g, Place(x, y));
      Playable(r) && r.level >= 1 && r.winner != VirusWins && (r.gameOver ==> FreeCount(r.board) == 0)
  {
  }

  /** Moving to the next level, or staying when refused or stalled, keeps
      the game playable. */
  lemma NextStaysPlayable(g: Game, draws: seq<Pos>)
    requires Playable(g) && g.size >= 1 && g.level >= 1 && g.winner != VirusWins
    requires g.gameOver ==> FreeCount(g.board) == 0
    ensures var r := Step(g, Next(draws));
      Playable(r) && r.level >= 1 && r.winner != VirusWins && (r.gameOver ==> FreeCount(r.board) == 0)
  {
  }

  /** A spread tick keeps the game playable, and it ends the game only on a
      full board, with the player as winner. */
  lemma SpreadStaysPlayable(g: Game, orders: seq<seq<Dir>>)
    requires Playable(g) && g.size >= 1 && g.level >= 1 && g.winner != VirusWins
    requires g.gameOver ==> FreeCount(g.board) == 0
    ensures var r := Step(g, Spread(orders));
      Playable(r) && r.level >= 1 && r.winner != VirusWins && (r.gameOver ==> FreeCount(r.board) == 0)
  {
    if |orders| == |g.virus| && forall k :: 0 <= k < |orders| ==> IsShuffle(orders[k]) {
      assert Step(g, Spread(orders)) == SpreadVirus(g, orders);
      VirusStaysPlayable(g, orders);
    } else {
      assert Step(g, Spread(orders)) == g;
    }
  }

  /** spread_virus itself, on well-formed direction orders. */
  lemma VirusStaysPlayable(g: Game, orders: seq<seq<Dir>>)
    requires Playable(g) && g.size >= 1 && g.level >= 1 && g.winner != VirusWins
    requires g.gameOver ==> FreeCount(g.board) == 0
    requires |orders| == |g.virus| && forall k :: 0 <= k < |orders| ==> IsShuffle(orders[k])
    ensures var r := SpreadVirus(g, orders);
      Playable(r) && r.level >= 1 && r.winner != VirusWins && (r.gameOver ==> FreeCount(r.board) == 0)
  {
    SpreadKeepsIslandRule(g, orders);
    if !g.gameOver {
      TickKeepsValid(g, orders);
      var mid := Tick(g, orders);
      assert Playable(mid);
      SpreadIffFree(mid);
    }
  }
}

=== FILE: radix.dfy ===
/** The number formats both save codecs are built from: base-3 row values,
    Python's `bit_length`, the length of `format(n, 'x')`, big-endian byte
    strings (`to_bytes`, `bytes.fromhex`, `int.from_bytes`) and base-3 digit
    lists. */
module Radix {
  import opened Wrappers

  type byte = x: int | 0 <= x < 256

  function Pow(b: nat, e: nat): (r: nat)
    ensures b >= 1 ==> r >= 1
    ensures b >= 2 && e >= 1 ==> r >= b
  {
    if e == 0 then 1 else b * Pow(b, e - 1)
  }

  function Max(a: int, b: int): int {
    if a >= b then a else b
  }

  // ---------------------------------------------------------------------
  // Powers

  lemma {:induction false} PowAdd(b: nat, e1: nat, e2: nat)
    ensures Pow(b, e1 + e2) == Pow(b, e1) * Pow(b, e2)
    decreases e1
  {
    if e1 > 0 {
      PowAdd(b, e1 - 1, e2);
      var x, y := Pow(b, e1 - 1), Pow(b, e2);
      assert Pow(b, e1 + e2) == b * (x * y);
      MulAssoc(b, x, y);
    }
  }

  lemma MulAssoc(a: int, b: int, c: int)
    ensures a * (b * c) == (a * b) * c
  {
  }

  lemma MulSucc(k: int, w: int)
    ensures k * w == w + (k - 1) * w
  {
  }

  lemma {:induction false} PowMono(b: nat, e1: nat, e2: nat)
    requires b >= 1 && e1 <= e2
    ensures Pow(b, e1) <= Pow(b, e2)
    decreases e2
  {
    if e1 < e2 {
      PowMono(b, e1, e2 - 1);
      assert Pow(b, e2 - 1) <= b * Pow(b, e2 - 1);
    }
  }

  /** (b^k)^e = b^(k·e). */
  lemma {:induction false} PowMul(b: nat, k: nat, e: nat)
    ensures Pow(Pow(b, k), e) == Pow(b, k * e)
    decreases e
  {
    if e > 0 {
      PowMul(b, k, e - 1);
      PowAdd(b, k, k * (e - 1));
      assert k * e == k + k * (e - 1);
    }
  }

  // ---------------------------------------------------------------------
  // Lengths

  /** `n.bit_length()` for n >= 0. */
  function BitLength(n: nat): nat {
    if n == 0 then 0 else 1 + BitLength(n / 2)
  }

  /** `len(format(n, 'x'))`: the number of hexadecimal digits, one for 0. */
  function HexLen(n: nat): nat {
    if n < 16 then 1 else 1 + HexLen(n / 16)
  }

  /** The bit length is the least k with n < 2^k. */
  lemma {:induction false} BitLengthBound(n: nat, k: nat)
    ensures n < Pow(2, k) <==> BitLength(n) <= k
    decreases k
  {
    if k > 0 && n > 0 {
      BitLengthBound(n / 2, k - 1);
    }
  }

  /** The hexadecimal length is the least k >= 1 with n < 16^k. */
  lemma {:induction false} HexLenBound(n: nat, k: nat)
    requires k >= 1
    ensures n < Pow(16, k) <==> HexLen(n) <= k
    decreases k
  {
    if k > 1 && n >= 16 {
      HexLenBound(n / 16, k - 1);
    }
  }

  /** A smaller number never has more hexadecimal digits. */
  lemma HexLenMono(m: nat, n: nat)
    requires m <= n
    ensures HexLen(m) <= HexLen(n)
  {
    HexLenBound(n, HexLen(n));
    HexLenBound(m, HexLen(n));
  }

  /** Whole bytes for `bit_length` bits equal whole hex-digit pairs: the
      row width of the fixed-width format, `(bit_length + 7) // 8`, agrees
      with the `FileHandler` format's `(len(format(max, 'x')) + 1) // 2`. */
  lemma HexBytesAgree(n: nat)
    requires n >= 1
    ensures (HexLen(n) + 1) / 2 == (BitLength(n) + 7) / 8
  {
    var h, b := HexLen(n), BitLength(n);
    var c := (b + 3) / 4;
    assert b >= 1;
    assert Pow(2, 4) == 16;
    assert h <= c by {
      BitLengthBound(n, b);
      PowMono(2, b, 4 * c);
      PowMul(2, 4, c);
      HexLenBound(n, c);
    }
    assert c <= h by {
      HexLenBound(n, h);
      PowMul(2, 4, h);
      BitLengthBound(n, 4 * h);
    }
  }

  // ---------------------------------------------------------------------
  // Bytes

  /** `n.to_bytes(w, 'big')` and `struct.pack`, with the value reduced mod
      256^w. Python raises instead of reducing, but both codecs check the
      ranges before writing, so on the values they pass n < 256^w and the
      reduction never happens. */
  function ToBytes(n: nat, w: nat): (r: seq<byte>)
    ensures |r| == w
  {
    if w == 0 then [] else ToBytes(n / 256, w - 1) + [n % 256]
  }

  /** `int.from_bytes(s, 'big')`, equally `int(s.hex(), 16)` for non-empty s. */
  function FromBytes(s: seq<byte>): (r: nat)
    ensures r < Pow(256, |s|)
  {
    if s == [] then 0
    else
      var init := FromBytes(s[..|s| - 1]);
      assert init * 256 + 256 <= Pow(256, |s| - 1) * 256;
      init * 256 + s[|s| - 1]
  }

  /** Writing `w` bytes and reading them back keeps the value modulo 256^w,
      and gives it back exactly when it fits. */
  lemma {:induction false} BytesRoundTrip(n: nat, w: nat)
    ensures FromBytes(ToBytes(n, w)) == n % Pow(256, w)
    decreases w
  {
    if w > 0 {
      var s := ToBytes(n, w);
      assert s[..|s| - 1] == ToBytes(n / 256, w - 1);
      BytesRoundTrip(n / 256, w - 1);
      ModSplit(n, 256, Pow(256, w - 1));
    }
  }

  /** (n mod (a·b)) = ((n / a) mod b)·a + n mod a. */
  lemma ModSplit(n: nat, a: nat, b: nat)
    requires a >= 1 && b >= 1
    ensures n % (a * b) == ((n / a) % b) * a + n % a
  {
    var q, r := n / a, n % a;
    var q2, r2 := q / b, q % b;
    MulDistrib(q2 * b, r2, a);
    MulAssoc(q2, b, a);
    assert n == q2 * (b * a) + (r2 * a + r);
    MulBelow(r2, b, a);
    DivModUnique(n, a * b, q2, r2 * a + r);
  }

  lemma MulDistrib(x: int, y: int, a: int)
    ensures (x + y) * a == x * a + y * a
  {
  }

  /** A digit below `b` times `a` leaves room for a remainder below `a`. */
  lemma MulBelow(r2: nat, b: nat, a: nat)
    requires r2 < b
    ensures r2 * a + a <= a * b
  {
    MulSucc(b - r2, a);
    MulDistrib(b - r2, r2, a);
    if b - r2 > 1 {
      MulAtLeast(b - r2 - 1, a);
    }
  }

  lemma DivModUnique(n: int, m: int, q: int, r: int)
    requires m >= 1 && 0 <= r < m && n == q * m + r
    ensures n % m == r && n / m == q
  {
    var q0, r0 := n / m, n % m;
    assert q * m - q0 * m == r0 - r;
    assert (q - q0) * m == q * m - q0 * m;
    assert (q0 - q) * m == q0 * m - q * m;
    if q > q0 {
      MulAtLeast(q - q0, m);
    } else if q < q0 {
      MulAtLeast(q0 - q, m);
    }
  }

  lemma {:induction false} MulAtLeast(k: int, m: int)
    requires k >= 1 && m >= 0
    ensures k * m >= m
    decreases k
  {
    if k > 1 {
      MulAtLeast(k - 1, m);
      assert k * m == (k - 1) * m + m;
    }
  }

  lemma SmallMod(n: nat, m: nat)
    requires n < m
    ensures n % m == n
  {
    DivModUnique(n, m, 0, n);
  }

  /** A number with at most 8w bits fits in w bytes. */
  lemma FitsInBytes(n: nat, w: nat)
    requires BitLength(n) <= 8 * w
    ensures n < Pow(256, w)
  {
    BitLengthBound(n, 8 * w);
    PowMul(2, 8, w);
    assert Pow(2, 8) == 256;
  }

  /** The bytes of `format(n, 'X').zfill(2·min)` with a '0' prepended when
      the length is odd, as `bytes.fromhex` turns them into bytes: the
      digits of `n`, padded to at least `min` digits and to an even count. */
  function HexField(n: nat, minDigits: nat): (r: seq<byte>)
    ensures |r| == (Max(HexLen(n), minDigits) + 1) / 2
  {
    ToBytes(n, (Max(HexLen(n), minDigits) + 1) / 2)
  }

  /** A value of at most 8w bits, padded to 2w hex digits, is exactly its
      w-byte big-endian form, and reads back unchanged. */
  lemma HexFieldFixed(n: nat, w: nat)
    requires w >= 1 && BitLength(n) <= 8 * w
    ensures HexField(n, 2 * w) == ToBytes(n, w)
    ensures FromBytes(HexField(n, 2 * w)) == n
  {
    FitsInBytes(n, w);
    PowMul(16, 2, w);
    PowMul(2, 4, 2 * w);
    PowMul(2, 8, w);
    assert Pow(16, 2) == 256;
    HexLenBound(n, 2 * w);
    BytesRoundTrip(n, w);
    SmallMod(n, Pow(256, w));
  }

  /** Whatever the minimum, the field reads back as the number: padding
      only adds leading zero bytes. */
  lemma HexFieldValue(n: nat, minDigits: nat)
    ensures |HexField(n, minDigits)| >= 1
    ensures FromBytes(HexField(n, minDigits)) == n
  {
    var w := (Max(HexLen(n), minDigits) + 1) / 2;
    HexLenBound(n, HexLen(n));
    PowMono(16, HexLen(n), 2 * w);
    PowMul(16, 2, w);
    assert Pow(16, 2) == 256;
    BytesRoundTrip(n, w);
    SmallMod(n, Pow(256, w));
  }

  // ---------------------------------------------------------------------
  // Sequential reads

  /** The byte strings one after the other. */
  function Concat(chunks: seq<seq<byte>>): (r: seq<byte>)
  {
    if chunks == [] then [] else chunks[0] + Concat(chunks[1..])
  }

  /** Pieces of one length concatenate to that many times the length. */
  lemma {:induction false} ConcatLength(chunks: seq<seq<byte>>, w: nat)
    requires forall i :: 0 <= i < |chunks| ==> |chunks[i]| == w
    ensures |Concat(chunks)| == |chunks| * w
    decreases |chunks|
  {
    if chunks != [] {
      ConcatLength(chunks[1..], w);
      MulSucc(|chunks|, w);
    }
  }

  /** `count` successive `f.read(w)` calls, as both loaders issue them:
      each read takes up to `w` bytes; an empty read makes the following
      `int(..., 16)` raise. The pieces are consecutive bytes of the data. */
  function ReadChunks(data: seq<byte>, w: nat, count: nat): (r: Option<seq<seq<byte>>>)
    ensures r.Some? ==> |r.value| == count
    ensures r.Some? ==> forall i :: 0 <= i < count ==> 1 <= |r.value[i]| <= w
    ensures r.Some? ==> Concat(r.value) <= data
    ensures r.None? <==> count > 0 && (w == 0 || |data| <= (count - 1) * w)
    decreases count
  {
    if count == 0 then Some([])
    else
      var take := if w <= |data| then w else |data|;
      if take == 0 then None
      else
        var rest := ReadChunks(data[take..], w, count - 1);
        MulSucc(count - 1, w);
        if rest.None? then
          MulAtLeast(count - 1, w);
          None
        else
          var r := [data[..take]] + rest.value;
          assert r[1..] == rest.value;
          assert data == data[..take] + data[take..];
          Some(r)
  }

  /** Where the reads split the data: `f.read(w)` takes min(w, remaining)
      bytes, so every piece but the last holds exactly `w` bytes and the
      last holds `w` or whatever remains. */
  lemma {:induction false} ReadChunksPieces(data: seq<byte>, w: nat, count: nat)
    ensures var r := ReadChunks(data, w, count);
            r.Some? ==> forall i :: 0 <= i < count - 1 ==> |r.value[i]| == w
    ensures var r := ReadChunks(data, w, count);
            r.Some? && count > 0 ==>
              |r.value[count - 1]| == if |data| - (count - 1) * w < w then |data| - (count - 1) * w else w
    decreases count
  {
    var r := ReadChunks(data, w, count);
    if r.Some? && count > 0 {
      var take := if w <= |data| then w else |data|;
      var rest := ReadChunks(data[take..], w, count - 1);
      assert r.value == [data[..take]] + rest.value;
      ReadChunksPieces(data[take..], w, count - 1);
      if count > 1 {
        assert take == w;
        MulSucc(count - 1, w);
        forall i | 0 <= i < count - 1 ensures |r.value[i]| == w {
          if i > 0 {
            assert r.value[i] == rest.value[i - 1];
          }
        }
      }
    }
  }

  /** A read of a full `w` bytes followed by the remaining reads. */
  lemma ReadStep(data: seq<byte>, w: nat, count: nat, tail: seq<seq<byte>>)
    requires 1 <= w <= |data| && count >= 1
    requires ReadChunks(data[w..], w, count - 1) == Some(tail)
    ensures ReadChunks(data, w, count) == Some([data[..w]] + tail)
  {
  }

  /** Pieces of exactly `w` bytes each are read back as they were written,
      whatever follows them. */
  lemma {:induction false} ReadConcat(chunks: seq<seq<byte>>, w: nat, extra: seq<byte>)
    requires w >= 1 && forall i :: 0 <= i < |chunks| ==> |chunks[i]| == w
    ensures ReadChunks(Concat(chunks) + extra, w, |chunks|) == Some(chunks)
    decreases |chunks|
  {
    if chunks != [] {
      ReadConcat(chunks[1..], w, extra);
      ReadConcatStep(chunks, w, extra);
    }
  }

  /** One full-width piece in front of pieces already read back. */
  lemma ReadConcatStep(chunks: seq<seq<byte>>, w: nat, extra: seq<byte>)
    requires w >= 1 && chunks != [] && |chunks[0]| == w
    requires ReadChunks(Concat(chunks[1..]) + extra, w, |chunks| - 1) == Some(chunks[1..])
    ensures ReadChunks(Concat(chunks) + extra, w, |chunks|) == Some(chunks)
  {
    var rest := Concat(chunks[1..]) + extra;
    var data := chunks[0] + rest;
    assert data[..w] == chunks[0] && data[w..] == rest;
    ReadStep(data, w, |chunks|, chunks[1..]);
    assert Concat(chunks) + extra == data;
    assert [chunks[0]] + chunks[1..] == chunks;
  }

  /** At the end of the data the last read may come up short: pieces of
      `w` bytes followed by a final piece of 1 to `w` bytes are read back as
      they were written. */
  lemma {:induction false} ReadConcatLast(chunks: seq<seq<byte>>, w: nat)
    requires w >= 1 && forall i :: 0 <= i < |chunks| ==> 1 <= |chunks[i]| <= w
    requires forall i :: 0 <= i < |chunks| - 1 ==> |chunks[i]| == w
    ensures ReadChunks(Concat(chunks), w, |chunks|) == Some(chunks)
    decreases |chunks|
  {
    if chunks != [] {
      var rest := Concat(chunks[1..]);
      var data := chunks[0] + rest;
      assert Concat(chunks) == data;
      if |chunks| == 1 {
        assert rest == [];
        assert data[..|data|] == chunks[0] && data[|data|..] == [];
      } else {
        ReadConcatLast(chunks[1..], w);
        assert data[..w] == chunks[0] && data[w..] == rest;
      }
      assert [chunks[0]] + chunks[1..] == chunks;
    }
  }

  // ---------------------------------------------------------------------
  // Base 3

  predicate TernaryRow(row: seq<int>) {
    forall j :: 0 <= j < |row| ==> 0 <= row[j] <= 2
  }

  /** `int(''.join(str(c) for c in row), 3)`: the row read as base-3
      digits, most significant first (Horner's rule). */
  function RowValue(row: seq<int>): (r: nat)
    requires TernaryRow(row)
    ensures r < Pow(3, |row|)
  {
    if row == [] then 0
    else
      var init := RowValue(row[..|row| - 1]);
      assert init * 3 + 3 <= Pow(3, |row| - 1) * 3;
      init * 3 + row[|row| - 1]
  }

  /** `sum(val * 3 ** (size - 1 - i) for i, val in enumerate(row))`, the
      positional sum written out. */
  function Positional(row: seq<int>, size: int): int
    requires |row| <= size
  {
    if row == [] then 0 else row[0] * Pow(3, size - 1) + Positional(row[1..], size - 1)
  }

  /** Horner's rule peeled from the front: the first digit weighs 3^(len-1). */
  lemma {:induction false} RowValueFront(row: seq<int>)
    requires row != [] && TernaryRow(row)
    ensures RowValue(row) == row[0] * Pow(3, |row| - 1) + RowValue(row[1..])
    decreases |row|
  {
    if |row| > 1 {
      var init := row[..|row| - 1];
      RowValueFront(init);
      assert init[1..] == row[1..][..|row[1..]| - 1];
      assert init[0] == row[0];
    } else {
      assert row[1..] == [];
    }
  }

  /** The two encoders compute the same number: the positional sum of
      file_manager.py equals the base-3 parse of file_handler.py. */
  lemma {:induction false} PositionalIsRowValue(row: seq<int>)
    requires TernaryRow(row)
    ensures Positional(row, |row|) == RowValue(row)
    decreases |row|
  {
    if row != [] {
      PositionalIsRowValue(row[1..]);
      RowValueFront(row);
    }
  }

  /** The lowest `len` base-3 digits of `n`, most significant first: the
      `for j in range(size-1, -1, -1): cell = num % 3; num //= 3` loop. */
  function Digits(n: nat, len: nat): (r: seq<int>)
    ensures |r| == len && TernaryRow(r)
  {
    if len == 0 then [] else Digits(n / 3, len - 1) + [n % 3]
  }

  /** The digit loop keeps exactly the value modulo 3^len. */
  lemma {:induction false} DigitsValue(n: nat, len: nat)
    ensures RowValue(Digits(n, len)) == n % Pow(3, len)
    decreases len
  {
    if len > 0 {
      var d := Digits(n, len);
      assert d[..|d| - 1] == Digits(n / 3, len - 1);
      DigitsValue(n / 3, len - 1);
      ModSplit(n, 3, Pow(3, len - 1));
      assert 3 * Pow(3, len - 1) == Pow(3, len);
    }
  }

  /** Reading back the digits of a ternary row gives the row. */
  lemma {:induction false} DigitsOfRow(row: seq<int>)
    requires TernaryRow(row)
    ensures Digits(RowValue(row), |row|) == row
    decreases |row|
  {
    if row != [] {
      var init := row[..|row| - 1];
      var v := RowValue(init);
      DivModUnique(RowValue(row), 3, v, row[|row| - 1]);
      DigitsOfRow(init);
      assert row == init + [row[|row| - 1]];
    }
  }

  /** The minimal base-3 digits of n (none for 0), as the `while n > 0`
      loop of `_base3` collects and reverses them. */
  function MinDigits(n: nat): (r: seq<int>)
    ensures TernaryRow(r)
  {
    if n == 0 then [] else MinDigits(n / 3) + [n % 3]
  }

  /** `str.zfill(len)` on a digit string: left-padded with zeros to `len`,
      left alone when already that long. */
  function ZFill(s: seq<int>, len: nat): (r: seq<int>)
    ensures |r| == Max(|s|, len)
  {
    if |s| >= len then s else seq(len - |s|, _ => 0) + s
  }

  /** `_base3(n, length)`: '0' * length for zero, otherwise the minimal
      digits zero-filled to `length`. Never shorter than `length`. */
  function Base3(n: nat, len: nat): (r: seq<int>)
    ensures |r| >= len && TernaryRow(r)
  {
    if n == 0 then seq(len, _ => 0) else ZFill(MinDigits(n), len)
  }

  /** A number below 3^len has at most `len` base-3 digits. */
  lemma {:induction false} MinDigitsLen(n: nat, len: nat)
    requires n < Pow(3, len)
    ensures |MinDigits(n)| <= len
    decreases len
  {
    if n > 0 {
      assert len >= 1;
      assert n / 3 < Pow(3, len - 1);
      MinDigitsLen(n / 3, len - 1);
    }
  }

  /** An all-zero row reads as 0. */
  lemma {:induction false} RowValueZero(row: seq<int>)
    requires forall j :: 0 <= j < |row| ==> row[j] == 0
    ensures TernaryRow(row) && RowValue(row) == 0
    decreases |row|
  {
    if row != [] {
      RowValueZero(row[..|row| - 1]);
    }
  }

  lemma {:induction false} DigitsOfZero(len: nat)
    ensures Digits(0, len) == seq(len, _ => 0)
    decreases len
  {
    if len > 0 {
      DigitsOfZero(len - 1);
    }
  }

  /** For a number that fits in `len` base-3 digits, `_base3` gives the
      same digits as the fixed-width loop. */
  lemma {:induction false} Base3IsDigits(n: nat, len: nat)
    requires n < Pow(3, len)
    ensures Base3(n, len) == Digits(n, len)
    decreases len
  {
    if n == 0 {
      DigitsOfZero(len);
    } else {
      assert len >= 1;
      assert n / 3 < Pow(3, len - 1);
      Base3IsDigits(n / 3, len - 1);
      MinDigitsLen(n / 3, len - 1);
      var s := MinDigits(n / 3);
      if n / 3 == 0 {
        DigitsOfZero(len - 1);
        assert MinDigits(n) == [n % 3];
      } else {
        assert MinDigits(n) == s + [n % 3];
        assert ZFill(s + [n % 3], len) == ZFill(s, len - 1) + [n % 3];
      }
    }
  }
}

=== FILE: validation.dfy ===
/** The island validator of validation.py: a multi-source breadth-first
    search from the listed virus cells that may only enter free cells, and
    the verdict "every free cell was reached". */
module Validation {
  import opened Board

  // ---------------------------------------------------------------------
  // Reference definition: reachability by paths

  /** `path` starts at a listed source and every later step moves to an
      adjacent, in-bounds, free cell. */
  ghost predicate IsPath(b: Grid, n: int, sources: seq<Pos>, path: seq<Pos>)
    requires Square(b, n)
  {
    && |path| >= 1
    && path[0] in sources
    && forall m :: 1 <= m < |path| ==> FreeAt(b, n, path[m]) && Adjacent(path[m - 1], path[m])
  }

  ghost predicate Reachable(b: Grid, n: int, sources: seq<Pos>, c: Pos)
    requires Square(b, n)
  {
    exists path :: IsPath(b, n, sources, path) && path[|path| - 1] == c
  }

  /** The island rule: every free cell can be reached from some source
      through free cells only. */
  ghost predicate NoIslands(b: Grid, n: int, sources: seq<Pos>)
    requires Square(b, n)
  {
    forall c: Pos :: FreeAt(b, n, c) ==> Reachable(b, n, sources, c)
  }

  // ---------------------------------------------------------------------
  // The search

  /** What the search leaves behind: the visited cells and the number of
      times a cell was taken off the front of the queue. */
  datatype Search = Search(visited: set<Pos>, pops: nat)

  /** The neighbours of `u` admitted when `u` is popped: in `dirs` order,
      each in-bounds, unvisited and free; each is marked visited as soon as
      it is admitted, so no cell is admitted twice. */
  function Admit(b: Grid, n: int, u: Pos, dirs: seq<Dir>, visited: set<Pos>): (added: seq<Pos>)
    requires Square(b, n)
    requires forall m :: 0 <= m < |dirs| ==> dirs[m] in Directions
    ensures Distinct(added)
    ensures forall k :: 0 <= k < |added| ==>
              FreeAt(b, n, added[k]) && added[k] !in visited && Adjacent(u, added[k])
    ensures forall m :: 0 <= m < |dirs| && FreeAt(b, n, Neighbour(u, dirs[m])) ==>
              Neighbour(u, dirs[m]) in visited || Neighbour(u, dirs[m]) in added
  {
    if dirs == [] then []
    else
      var q := Neighbour(u, dirs[0]);
      if InBounds(q, n) && q !in visited && Cell(b, q) == FREE then
        [q] + Admit(b, n, u, dirs[1..], visited + {q})
      else
        Admit(b, n, u, dirs[1..], visited)
  }

  /** The `while queue` loop: pop the front cell, admit its free unvisited
      neighbours at the back. The measure is the number of unvisited cells,
      then the queue length. */
  function Bfs(b: Grid, n: int, queue: seq<Pos>, visited: set<Pos>, pops: nat): (r: Search)
    requires Square(b, n)
    requires visited <= AllCells(n)
    ensures visited <= r.visited <= AllCells(n)
    ensures r.pops == pops + |queue| + |r.visited - visited|
    decreases |AllCells(n) - visited|, |queue|
  {
    if queue == [] then Search(visited, pops)
    else
      var added := Admit(b, n, queue[0], Directions, visited);
      var visited' := visited + Elems(added);
      AdmitShrinks(n, visited, added);
      assert added == [] ==> visited' == visited;
      var r := Bfs(b, n, queue[1..] + added, visited', pops + 1);
      NewlyVisited(visited, added, r.visited);
      r
  }

  lemma NewlyVisited(visited: set<Pos>, added: seq<Pos>, last: set<Pos>)
    requires Distinct(added)
    requires forall k :: 0 <= k < |added| ==> added[k] !in visited
    requires visited + Elems(added) <= last
    ensures |last - visited| == |last - (visited + Elems(added))| + |added|
  {
    DistinctCard(added);
    assert last - visited == (last - (visited + Elems(added))) + Elems(added);
  }

  /** Admitting cells shrinks the unvisited count by the number admitted. */
  lemma AdmitShrinks(n: int, visited: set<Pos>, added: seq<Pos>)
    requires Distinct(added)
    requires forall k :: 0 <= k < |added| ==> InBounds(added[k], n) && added[k] !in visited
    ensures |AllCells(n) - (visited + Elems(added))| == |AllCells(n) - visited| - |added|
  {
    var unvisited := AllCells(n) - visited;
    DistinctCard(added);
    assert unvisited == (AllCells(n) - (visited + Elems(added))) + Elems(added);
  }

  /** The search seeded as validation.py seeds it: every listed source
      queued (duplicates included) and marked visited. */
  function Explore(b: Grid, n: int, sources: seq<Pos>): (r: Search)
    requires Square(b, n)
    requires forall k :: 0 <= k < |sources| ==> InBounds(sources[k], n)
    ensures forall c: Pos :: c in r.visited <==> Reachable(b, n, sources, c)
    ensures forall c :: c in r.visited ==> c in sources || FreeAt(b, n, c)
    ensures r.pops == |sources| + |r.visited - Elems(sources)|
    ensures r.pops <= |sources| + n * n
  {
    BfsStart(b, n, sources);
    var r := Bfs(b, n, sources, Elems(sources), 0);
    BfsCorrect(b, n, sources, sources, Elems(sources), 0);
    AllCellsCard(n);
    SubsetCard(r.visited - Elems(sources), AllCells(n));
    r
  }

  /** validate_no_islands: true iff every free cell was visited. */
  function ValidateNoIslands(b: Grid, n: int, sources: seq<Pos>): (ok: bool)
    requires Square(b, n)
    requires forall k :: 0 <= k < |sources| ==> InBounds(sources[k], n)
    ensures ok <==> NoIslands(b, n, sources)
    ensures (forall c: Pos :: !FreeAt(b, n, c)) ==> ok
    ensures |sources| == 0 && (exists c: Pos :: FreeAt(b, n, c)) ==> !ok
  {
    var search := Explore(b, n, sources);
    var ok := forall i, j | 0 <= i < n && 0 <= j < n :: b[i][j] == FREE ==> (i, j) in search.visited;
    Verdict(b, n, sources, search.visited);
    ok
  }

  /** The final double loop of validation.py decides the island rule once
      the visited set is the reachable set. */
  lemma Verdict(b: Grid, n: int, sources: seq<Pos>, visited: set<Pos>)
    requires Square(b, n)
    requires forall c: Pos :: c in visited <==> Reachable(b, n, sources, c)
    ensures (forall i, j | 0 <= i < n && 0 <= j < n :: b[i][j] == FREE ==> (i, j) in visited)
            <==> NoIslands(b, n, sources)
    ensures (forall c: Pos :: !FreeAt(b, n, c)) ==> NoIslands(b, n, sources)
    ensures |sources| == 0 && (exists c: Pos :: FreeAt(b, n, c)) ==> !NoIslands(b, n, sources)
  {
    if |sources| == 0 && (exists c: Pos :: FreeAt(b, n, c)) {
      var c: Pos :| FreeAt(b, n, c);
      assert !Reachable(b, n, sources, c);
    }
    if forall i, j | 0 <= i < n && 0 <= j < n :: b[i][j] == FREE ==> (i, j) in visited {
      forall c: Pos | FreeAt(b, n, c) ensures Reachable(b, n, sources, c) {
        assert b[c.0][c.1] == FREE;
      }
    }
  }

  // ---------------------------------------------------------------------
  // Correctness of the search

  /** `v`'s free in-bounds neighbours are all visited. */
  ghost predicate ClosedAt(b: Grid, n: int, visited: set<Pos>, v: Pos)
    requires Square(b, n)
  {
    forall q: Pos :: Adjacent(v, q) && FreeAt(b, n, q) ==> q in visited
  }

  /** The loop invariant: queued cells are visited, visited cells are
      reachable, and a visited cell no longer queued has been expanded. */
  ghost predicate BfsInv(b: Grid, n: int, sources: seq<Pos>, queue: seq<Pos>, visited: set<Pos>)
    requires Square(b, n)
  {
    && visited <= AllCells(n)
    && Elems(sources) <= visited
    && Elems(queue) <= visited
    && (forall v :: v in visited ==> Reachable(b, n, sources, v))
    && (forall v :: v in visited && v !in queue ==> ClosedAt(b, n, visited, v))
  }

  lemma BfsStart(b: Grid, n: int, sources: seq<Pos>)
    requires Square(b, n)
    requires forall k :: 0 <= k < |sources| ==> InBounds(sources[k], n)
    ensures BfsInv(b, n, sources, sources, Elems(sources))
  {
    forall v | v in Elems(sources) ensures Reachable(b, n, sources, v) {
      assert IsPath(b, n, sources, [v]);
    }
  }

  /** The search visits exactly the reachable cells. */
  lemma {:induction false} BfsCorrect(b: Grid, n: int, sources: seq<Pos>, queue: seq<Pos>,
                                      visited: set<Pos>, pops: nat)
    requires Square(b, n)
    requires BfsInv(b, n, sources, queue, visited)
    ensures forall c: Pos :: c in Bfs(b, n, queue, visited, pops).visited <==> Reachable(b, n, sources, c)
    decreases |AllCells(n) - visited|, |queue|
  {
    if queue == [] {
      forall c: Pos | Reachable(b, n, sources, c) ensures c in visited {
        var path :| IsPath(b, n, sources, path) && path[|path| - 1] == c;
        ClosedContainsPath(b, n, sources, visited, path);
      }
    } else {
      var added := Admit(b, n, queue[0], Directions, visited);
      AdmitShrinks(n, visited, added);
      BfsStep(b, n, sources, queue, visited);
      BfsCorrect(b, n, sources, queue[1..] + added, visited + Elems(added), pops + 1);
    }
  }

  /** One pop of the loop keeps the invariant. */
  lemma BfsStep(b: Grid, n: int, sources: seq<Pos>, queue: seq<Pos>, visited: set<Pos>)
    requires Square(b, n) && queue != []
    requires BfsInv(b, n, sources, queue, visited)
    ensures var added := Admit(b, n, queue[0], Directions, visited);
            BfsInv(b, n, sources, queue[1..] + added, visited + Elems(added))
  {
    var u := queue[0];
    var added := Admit(b, n, u, Directions, visited);
    var visited' := visited + Elems(added);
    var queue' := queue[1..] + added;
    forall v | v in visited' ensures Reachable(b, n, sources, v) {
      if v !in visited {
        var k :| 0 <= k < |added| && added[k] == v;
        ReachStep(b, n, sources, u, v);
      }
    }
    forall v | v in visited' && v !in queue' ensures ClosedAt(b, n, visited', v) {
      if v == u {
        forall q: Pos | Adjacent(u, q) && FreeAt(b, n, q) ensures q in visited' {
          assert q == Neighbour(u, Directions[0]) || q == Neighbour(u, Directions[1]) ||
                 q == Neighbour(u, Directions[2]) || q == Neighbour(u, Directions[3]);
        }
      } else {
        assert v in visited && v !in queue;
      }
    }
  }

  /** A cell one free step from a reachable cell is reachable. */
  lemma ReachStep(b: Grid, n: int, sources: seq<Pos>, x: Pos, y: Pos)
    requires Square(b, n)
    requires Reachable(b, n, sources, x)
    requires Adjacent(x, y) && FreeAt(b, n, y)
    ensures Reachable(b, n, sources, y)
  {
    var path :| IsPath(b, n, sources, path) && path[|path| - 1] == x;
    assert IsPath(b, n, sources, path + [y]);
  }

  /** A set that holds the sources and is closed under free steps holds
      the end of every path. */
  lemma {:induction false} ClosedContainsPath(b: Grid, n: int, sources: seq<Pos>,
                                              visited: set<Pos>, path: seq<Pos>)
    requires Square(b, n)
    requires Elems(sources) <= visited
    requires forall v :: v in visited ==> ClosedAt(b, n, visited, v)
    requires IsPath(b, n, sources, path)
    ensures path[|path| - 1] in visited
  {
    if |path| > 1 {
      var init := path[..|path| - 1];
      assert IsPath(b, n, sources, init);
      ClosedContainsPath(b, n, sources, visited, init);
      assert ClosedAt(b, n, visited, init[|init| - 1]);
    }
  }

  /** Every source is reachable (by the one-cell path). */
  lemma ReachSource(b: Grid, n: int, sources: seq<Pos>, s: Pos)
    requires Square(b, n)
    requires s in sources
    ensures Reachable(b, n, sources, s)
  {
    assert IsPath(b, n, sources, [s]);
  }

  /** A walk from a source whose later cells are each free or themselves
      sources ends at a reachable cell: restart from the last source on it. */
  lemma {:induction false} WalkReach(b: Grid, n: int, sources: seq<Pos>, walk: seq<Pos>)
    requires Square(b, n)
    requires |walk| >= 1 && walk[0] in sources
    requires forall m :: 1 <= m < |walk| ==>
               Adjacent(walk[m - 1], walk[m]) && (FreeAt(b, n, walk[m]) || walk[m] in sources)
    ensures Reachable(b, n, sources, walk[|walk| - 1])
  {
    var last := walk[|walk| - 1];
    if last in sources {
      ReachSource(b, n, sources, last);
    } else {
      var init := walk[..|walk| - 1];
      WalkReach(b, n, sources, init);
      ReachStep(b, n, sources, init[|init| - 1], last);
    }
  }

  /** On a board whose every cell is free or a source, each in-bounds cell
      is reachable from any source: walk rows first, then columns. */
  lemma {:induction false} OpenBoardReach(b: Grid, n: int, sources: seq<Pos>, a: Pos, c: Pos)
    requires Square(b, n)
    requires a in sources && InBounds(a, n) && InBounds(c, n)
    requires forall p: Pos :: InBounds(p, n) ==> FreeAt(b, n, p) || p in sources
    ensures Reachable(b, n, sources, c)
    decreases (if a.0 < c.0 then c.0 - a.0 else a.0 - c.0) + (if a.1 < c.1 then c.1 - a.1 else a.1 - c.1)
  {
    if c == a {
      ReachSource(b, n, sources, a);
    } else {
      var m: Pos :=
        if c.0 > a.0 then (c.0 - 1, c.1)
        else if c.0 < a.0 then (c.0 + 1, c.1)
        else if c.1 > a.1 then (c.0, c.1 - 1)
        else (c.0, c.1 + 1);
      OpenBoardReach(b, n, sources, a, m);
      if c in sources {
        ReachSource(b, n, sources, c);
      } else {
        ReachStep(b, n, sources, m, c);
      }
    }
  }
}

=== FILE: wrappers.dfy ===
/** The Option used for the source's `None` returns and swallowed
    exceptions. */
module Wrappers {

  datatype Option<+T> = None | Some(value: T)
}
